=== FILE: README.md ===
# Biggest-folder scanner: a Dafny model of its scan pipeline

The scanner is a small Swing application. The user picks a root directory.
A worker thread then does four things:
- it counts every directory under the root, which sizes the progress bar;
- it computes the total size of each immediate subdirectory of the root;
- it ranks the subdirectories largest first;
- it shows the top ten with formatted sizes and modification times.

While counting, it also collects an "Access denied to: …" line for every
entry it could not read for lack of permission. A "Stop Scan" button clears
a shared `scanning` flag. The worker reads the flag before each root entry
and, while it sizes a subdirectory, at each file visit. The counting walk
never reads it.

This project models that pipeline and proves what it computes.

- `file_system.dfy` (module `FileSystem`) holds the file system as a finite
  tree. A node is one of:
  - a file;
  - a directory that opens, with its entries and an optional error that cut
    its listing short;
  - a directory that cannot be opened;
  - an entry whose attributes cannot be read;
  - a symbolic link, with its own size and the node it leads to.

  `Walk` gives the sequence of visitor calls that `Files.walkFileTree` makes
  on such a tree:
  - `preVisitDirectory`, then each entry, then `postVisitDirectory`;
  - `visitFile` for a file, and for a link, which the walk does not follow;
  - `visitFileFailed` for anything that cannot be opened or read.

  `Files.isDirectory`, `Files.getLastModifiedTime` and
  `Files.newDirectoryStream` do follow links. The node methods
  `IsDirectory` and `Modified`, and the function `Resolve`, model that.

  Beside `Walk`, the module gives reference definitions on the tree itself:
  total size, directory count, denied paths, and whether any listing failed.
  It also gives folds over the call sequence, and `WalkMatchesTree` proves
  that the two agree. `SimpleFileVisitor.postVisitDirectory` rethrows an
  iteration error; the model captures this with `FirstFault`, the position
  of the first `postVisitDirectory` that rethrows, where the walk stops.
  When no call rethrows, it is the length of the walk.
- `folder_info.dfy` (module `FolderRecords`): the immutable `FolderInfo`
  record and its getters.
- `ranking.dfy` (module `Ranking`): `folderInfoList.sort` by descending size.
  It is proved sorted, a permutation of its input, and stable.
- `size_format.dfy` (module `SizeFormat`): the unit choice of `formatSize`,
  and the exact text of its "bytes" branch. The decimal text of a `long` is
  proved to be the one canonical decimal (no leading zero, no "-0") that
  reads back as the number.
- `scanner.dfy` (module `Scanner`) holds the rest.
  - The class `FolderScanner` owns the `deniedPaths` field, which is updated
    in place.
  - Its methods are the visitor loops of `countDirectories` and
    `calculateFolderSize`, the loop over the root's entries, the top-ten
    loop, and `startScan` with its worker.
  - Each method is proved against a specification function:
    - `CountDirectories` against the folds `PreVisits` and `DeniedFiles` over `Walk`;
    - `CalculateFolderSize` and `SumVisitedSizes` against `FolderSize` and `VisitedSize`;
    - `ScanEntries`, `ScanLoop` and `ScanEntry` against `Scan` and `Progress`;
    - `ReportTop` against `Render`;
    - `ScanAndReport` and `StartScan` against the predicate `ReportsScan`.

While no second scan is started, the `scanning` flag only goes from true to
false. So the reads the worker makes see some number of `true`s followed by
`false`s. The model takes that number, `live`, as an input. Every read that
sees true uses one up.

Some consequences of the code are easy to miss. The model follows the code in
each of them.
- An immediate subdirectory that cannot be opened still gets a record, of
  size 0. `calculateFolderSize` receives the denial in `visitFileFailed`,
  swallows it, and returns 0. The loop's `AccessDeniedException` handler is
  reached only when a directory listing inside the subdirectory's walk
  fails part-way (the subdirectory's own listing included) and
  `postVisitDirectory` rethrows that failure. The lemma
  `ExampleScanKeepsDeniedSubdirectory` shows the size-0 record.
- A stop that lands inside a subdirectory's walk still yields a record for
  that subdirectory. Its size is the partial sum added before the flag read
  false. The loop then stops at the next entry. The lemma
  `ExampleCancelInsideWalkKeepsPartialRecord` shows this.
- A root that is a symbolic link to a directory is listed through the link,
  but `countDirectories` does not follow it and counts 0 directories. If
  the directory has entries, the first progress value divides by zero. The
  `ArithmeticException` is not caught and ends the worker with no report.
- A root entry that is a link to a directory counts as a directory in the
  loop. Its record has the size of the link itself, because the walk does
  not follow the link, and the modification time of the directory.
- A listing error of the root itself, after its last entry, escapes as an
  unchecked `DirectoryIteratorException`. It ends the worker before the
  report is built (`WorkerDied`).
- The progress value posted before entry `k` is `k / totalDirs`, an integer
  division. So it stays 0 until as many entries have been processed as
  there are directories in the whole tree.

The rows marked "Loop step" below are one-step unfoldings of `Scan`, `FolderSize` or the event folds. They exist
for the loop proofs and state no property of their own.

## Model

| member | source | states |
|---|---|---|
| FileSystem.Walk | src/biggestFileFinder/FolderScannerUI.java:187-202 | The visitor calls of `walkFileTree` on a node: at least one call, starting with `preVisitDirectory` exactly for a directory that opens, and for such a directory at least one call per entry plus the two that frame them. |
| FileSystem.WalkEntries | src/biggestFileFinder/FolderScannerUI.java:211-228 | The visitor calls for a directory's entries in stream order: at least one per entry, and none exactly when there is no entry. |
| FileSystem.WalkMatchesTree | src/biggestFileFinder/FolderScannerUI.java:184-230 | Over a whole walk, the sizes `visitFile` receives add up to the subtree's total size, and the `preVisitDirectory` calls number its openable directories. The access-denied `visitFileFailed` paths are the subtree's denied paths in pre-order. The walk runs to its end exactly when no directory listing failed. |
| FileSystem.WalkEntriesMatchTrees | src/biggestFileFinder/FolderScannerUI.java:184-230 | The same four facts for the walk of a directory's entry list. |
| FileSystem.DirectoryWalkFramesEntries | src/biggestFileFinder/FolderScannerUI.java:189-192 | A directory that opens adds one `preVisitDirectory` and no file or denied path around its entries' calls. Its walk completes iff its entries' walk completes and its own listing did not fail. |
| FileSystem.DirectoryWalkStartsWithPreVisit | src/biggestFileFinder/FolderScannerUI.java:189-192 | For a root that opens, `preVisitDirectory` runs before anything can stop the walk, so at least one directory is counted. |
| FileSystem.FaultlessWalkIsWhole | src/biggestFileFinder/FolderScannerUI.java:184-206 | With no listing failure, the walk is never cut short. Its directory count is the tree's, and its denied paths are the tree's. |
| FileSystem.SumPrefixBound | src/biggestFileFinder/FolderScannerUI.java:213-218 | A sum over a prefix of the visited sizes never exceeds the full sum. |
| FileSystem.EventsAppend | src/biggestFileFinder/FolderScannerUI.java:184-230 | File sizes, directory counts, denied paths and the first rethrown fault all distribute over concatenation of walks. |
| FileSystem.FileSizesPrefix | src/biggestFileFinder/FolderScannerUI.java:213-218 | The files seen in an earlier prefix of the walk are a prefix of those seen in a later one, and strictly shorter when a `visitFile` lies between. |
| FileSystem.PrefixSizesBound | src/biggestFileFinder/FolderScannerUI.java:213-218 | The files of a prefix of the walk hold no more bytes than those of the whole walk. |
| FileSystem.Resolve | src/biggestFileFinder/FolderScannerUI.java:101-102 | `newDirectoryStream` opens what a chain of links leads to: the result is not a link, and it is a directory exactly when `Files.isDirectory` says the start is one. |
| FileSystem.RootCountIsZeroOnlyForLink | src/biggestFileFinder/FolderScannerUI.java:101-103 | Of the roots a stream can be opened on, `countDirectories` counts no directory exactly when the root is a link, and then lists no denied path. |
| FolderRecords.GettersReturnConstructorArguments | src/biggestFileFinder/FolderInfo.java:11-27 | `getPath`, `getSize` and `getLastModifiedTime` return exactly the constructor's arguments. |
| Ranking.Insert | src/biggestFileFinder/FolderScannerUI.java:137 | Inserting into a list ordered largest first keeps it ordered, adds exactly that record (multiset), and puts either the new record or the old head first. |
| Ranking.SortBySize | src/biggestFileFinder/FolderScannerUI.java:137 | The ranked list is ordered by non-increasing size and is a permutation (same multiset) of the collected records. |
| Ranking.NonIncreasingOrdersEveryPair | src/biggestFileFinder/FolderScannerUI.java:137 | In the ranked order, every earlier record is at least as large as every later one, not only its neighbour. |
| Ranking.InsertKeepsTiesInOrder | src/biggestFileFinder/FolderScannerUI.java:137 | Insertion puts the new record ahead of the records of its size and leaves the order of every size class otherwise unchanged. |
| Ranking.SortIsStable | src/biggestFileFinder/FolderScannerUI.java:137 | For every size, the records of that size appear in the ranking in the order the scan collected them, as `List.sort` guarantees. |
| Ranking.SortOfOrderedPair | src/biggestFileFinder/FolderScannerUI.java:137 | Two records already largest first are left as they are. |
| Ranking.ExampleRanking | src/biggestFileFinder/FolderScannerUI.java:137 | Records of 5000, 15,000,000 and 0 bytes rank as 15,000,000, 5000, 0. |
| SizeFormat.NatDigits | src/biggestFileFinder/FolderScannerUI.java:246 | The decimal text of a natural number is non-empty, all digits, has no leading zero, and parses back to the number. |
| SizeFormat.DecimalString | src/biggestFileFinder/FolderScannerUI.java:246 | The text a `long` becomes in string concatenation is a canonical decimal: a minus sign exactly for a negative number, then digits without a leading zero. It reads back as the number. |
| SizeFormat.CanonicalDigitsAreNatDigits | src/biggestFileFinder/FolderScannerUI.java:246 | A digit string without a leading zero is the decimal text of its own value. |
| SizeFormat.CanonicalDecimalIsUnique | src/biggestFileFinder/FolderScannerUI.java:246 | Any canonical decimal is `Long.toString` of the number it reads as, so `DecimalString`'s contract fixes its text. |
| SizeFormat.FormatSize | src/biggestFileFinder/FolderScannerUI.java:232-248 | The plain "bytes" text is chosen iff the count is below 1024. Otherwise the unit is the largest of KB, MB and GB that does not exceed the count. The plain text is " bytes" after a canonical decimal that reads back as the count. |
| SizeFormat.PlainTextIsConcatenation | src/biggestFileFinder/FolderScannerUI.java:246 | Any text meeting the plain branch's promise is `bytes + " bytes"`, and it is what `FormatSize` returns. |
| SizeFormat.ScaledQuotientBelowNextUnit | src/biggestFileFinder/FolderScannerUI.java:239-244 | For KB and MB, the count lies in [unit, 1024·unit), so the displayed quotient lies in [1, 1024). |
| SizeFormat.FormatExamples | src/biggestFileFinder/FolderScannerUI.java:239-247 | 500 gives "500 bytes". 2048 gives KB, 1,572,864 gives MB and 3·2^30 gives GB. |
| Scanner.Messages | src/biggestFileFinder/FolderScannerUI.java:198 | One message per denied path, in order, each "Access denied to: " followed by exactly that path. |
| Scanner.MessagesAppendOne | src/biggestFileFinder/FolderScannerUI.java:198 | One more denied path adds exactly one "Access denied to: " message at the end of the list. |
| Scanner.CountMessagesStep | src/biggestFileFinder/FolderScannerUI.java:189-201 | Loop step: one more visitor call adds 1 to the count for a `preVisitDirectory`, and one message for an access-denied `visitFileFailed`. |
| Scanner.VisitedSize | src/biggestFileFinder/FolderScannerUI.java:211-229 | The sum the visitor adds up over a sequence of calls, with `live` true reads: it never gains reads, and it is an exception only when some `postVisitDirectory` rethrows. |
| Scanner.FolderSize | src/biggestFileFinder/FolderScannerUI.java:209-230 | `calculateFolderSize` of a subtree: it never gains reads, and it throws only when some directory listing in the subtree failed. |
| Scanner.SizeStopsWhenCancelled | src/biggestFileFinder/FolderScannerUI.java:214-216 | When the flag reads false at a `visitFile`, the summed result is the sum of the sizes visited before it, with no reads left. |
| Scanner.SizeStopsAtFault | src/biggestFileFinder/FolderScannerUI.java:209-230 | Loop step: when a `postVisitDirectory` rethrows before the flag reads false, `calculateFolderSize` throws that exception. |
| Scanner.SizeAtEndOfWalk | src/biggestFileFinder/FolderScannerUI.java:229 | When the walk ends normally, the result is the sum of every size visited. |
| Scanner.VisitedBeforeFaultBound | src/biggestFileFinder/FolderScannerUI.java:213-219 | The sizes added before the walk is cut short never exceed the subtree's total. |
| Scanner.VisitedSizeBounds | src/biggestFileFinder/FolderScannerUI.java:211-229 | For any sequence of visitor calls, a returned sum is at most the bytes visited before the first rethrow. It is 0 when the flag already reads false. When nothing rethrows and the flag stays true, it is the sum of every visited size. |
| Scanner.FolderSizeBounds | src/biggestFileFinder/FolderScannerUI.java:209-230 | `calculateFolderSize` never returns more than the subtree's total. A size it returns when the flag already reads false is 0. It never gains reads of the flag. With the flag true throughout and no listing failure, it returns exactly the subtree's total. |
| Scanner.ScanOfDirectory | src/biggestFileFinder/FolderScannerUI.java:120-129 | Loop step: a directory entry whose size is computed yields a record of its path, that size and its modification time. An `AccessDeniedException` skips it. Any other `IOException` ends the loop. |
| Scanner.ScanStepOverFile | src/biggestFileFinder/FolderScannerUI.java:120-130 | Loop step: a non-directory entry past the flag check is counted and yields no record. |
| Scanner.ScanStepOverDirectory | src/biggestFileFinder/FolderScannerUI.java:120-130 | Loop step: a directory entry past the flag check either appends its record and is counted, is counted without a record, or ends the loop, keeping every record collected so far. |
| Scanner.ScanStopsWhenCancelled | src/biggestFileFinder/FolderScannerUI.java:117-119 | Loop step: a false read of the flag ends the loop and keeps every record already collected. |
| Scanner.ScanStopsWhenExhausted | src/biggestFileFinder/FolderScannerUI.java:110 | Loop step: when the stream runs out, the loop ends with every entry counted. |
| Scanner.Scan | src/biggestFileFinder/FolderScannerUI.java:110-132 | The loop over the root's entries with `live` true reads: at most one record per counted entry, no more entries counted than there are or than the flag allowed, all of them when the stream runs out, and fewer when the flag stopped it. The division at line 111 is taken out of `Scan`: `ScanEntries` decides it from the count before the loop, so `Scan` never ends with `DividedByZero`. |
| Scanner.ScanRecordsComeFromDirectories | src/biggestFileFinder/FolderScannerUI.java:110-132 | However the flag behaves: records come only from directory entries, one per entry, in enumeration order, and each is no larger than its subtree. `dirsScanned` never exceeds the number of entries and equals it when the stream runs out. |
| Scanner.ScanWithoutStop | src/biggestFileFinder/FolderScannerUI.java:110-132 | With the flag true throughout and no listing failure, every entry is counted. Every directory entry, in order, yields one record with its subtree's full size. |
| Scanner.ExampleScanKeepsDeniedSubdirectory | src/biggestFileFinder/FolderScannerUI.java:120-129 | A root holding A (5000 bytes), B (15,000,000 bytes) and an unopenable C gives records A:5000, B:15,000,000, C:0, with all three entries counted. |
| Scanner.ExampleCancelInsideWalkKeepsPartialRecord | src/biggestFileFinder/FolderScannerUI.java:117-124 | When the flag reads false at the second file of subdirectory A, A still yields a record with the first file's bytes (less than A's total when the second file is not empty), and the loop stops at the next entry, cancelled, with one entry counted. |
| Scanner.ExampleCountListsDeniedSubdirectory | src/biggestFileFinder/FolderScannerUI.java:184-206 | That root has no failing listing, so its walk runs to the end. Up to that end, `countDirectories` counts 3 `preVisitDirectory` calls (root, A, B) and lists only C as denied. These are the tree's directory count and denied paths. |
| Scanner.Progress | src/biggestFileFinder/FolderScannerUI.java:111 | One progress value is posted per entry that reaches the loop body. |
| Scanner.ProgressValues | src/biggestFileFinder/FolderScannerUI.java:107-111 | The value posted before entry `k` is `k / totalDirs`, and it is 0 whenever `k < totalDirs`. |
| Scanner.FolderScanner.constructor | src/biggestFileFinder/FolderScannerUI.java:25 | The denied list starts empty. |
| Scanner.FolderScanner.CountDirectories | src/biggestFileFinder/FolderScannerUI.java:184-207 | The result is the number of `preVisitDirectory` calls up to the first rethrown failure. `deniedPaths` gains one "Access denied to: " message per access-denied `visitFileFailed` there, in visit order, appended after what it held. The count is at least 1 for a root that opens. With no listing failure, the count is the tree's directory count and the messages are for the tree's denied paths. |
| Scanner.FolderScanner.CalculateFolderSize | src/biggestFileFinder/FolderScannerUI.java:209-230 | The result and the remaining flag reads are those of `FolderSize`, and a returned size never exceeds the subtree's total. The method has no `modifies` clause, so it cannot change `deniedPaths`. |
| Scanner.FolderScanner.ScanEntries | src/biggestFileFinder/FolderScannerUI.java:107-132 | With a directory count of at least 1, or an empty stream, the records, `dirsScanned` and the way the loop ended are those of `Scan`, and the progress values posted are `Progress` of the entries that reached the loop body. With a count of 0 and a non-empty stream, the first division throws before anything is posted or collected. |
| Scanner.FolderScanner.SumVisitedSizes | src/biggestFileFinder/FolderScannerUI.java:211-229 | The visitor loop of `calculateFolderSize` over a sequence of calls: its sum and remaining reads are `VisitedSize`'s. |
| Scanner.FolderScanner.ScanEntry | src/biggestFileFinder/FolderScannerUI.java:117-130 | One pass of the loop body after the progress post: it either ends the loop, with the records collected so far and a non-exhausted exit, or continues, and the rest of the loop from the next entry then completes `Scan`'s run. |
| Scanner.FolderScanner.ScanDirectory | src/biggestFileFinder/FolderScannerUI.java:120-129 | A directory entry past the flag check: either its record is appended (size, then modification time) and the rest of the loop from the next entry completes `Scan`'s run, or an `AccessDeniedException` skips the record with the same continuation, or another `IOException` ends the loop as `Aborted` with the records collected so far. |
| Scanner.FolderScanner.ScanLoop | src/biggestFileFinder/FolderScannerUI.java:110-132 | The iterations of the loop for a count of at least 1: the records, `dirsScanned` and the way the loop ended are those of `Scan`, and the progress values are `Progress` of the entries that reached the loop body. |
| Scanner.Render | src/biggestFileFinder/FolderScannerUI.java:143-145 | One report entry shows the record's path and modification time, and its size as plain bytes exactly when below 1024, otherwise scaled from the record's own byte count. |
| Scanner.FolderScanner.ReportTop | src/biggestFileFinder/FolderScannerUI.java:139-146 | The report holds exactly the first `min(10, n)` ranked records, in rank order, each with its path, formatted size and modification time. |
| Scanner.FolderScanner.ScanAndReport | src/biggestFileFinder/FolderScannerUI.java:105-146 | The outcome after counting is `ReportsScan`: the loop's progress values, none when the count is 0; the worker's death when the count is 0 and the stream is not empty, or when the root's listing fails after its last entry; otherwise the top ten of the stably sorted records, also after a cancellation or an `IOException`. |
| Scanner.FolderScanner.StartScan | src/biggestFileFinder/FolderScannerUI.java:87-146 | `deniedPaths` is cleared, then holds exactly the messages `countDirectories` appended. A root that cannot be listed, even through links, gives an empty report. Otherwise the outcome is `ReportsScan` of the listed directory, with the count of the walk from the root as divisor. A root that is a link to a non-empty directory ends the worker with no progress posted and no denied path listed. |

## Left out

- The Swing window is left out: layout, file chooser, text areas, progress-bar calls, `invokeLater` marshalling, button enabling and the final `setValue(getMaximum())`. The model returns the report entries and the progress values instead of displaying them.
- Threads, `volatile` visibility and `interrupt()` are not modelled. The stop button is reduced to the number of flag reads that still see true.
- Overlapping scans are not modelled. "Select Directory" stays enabled during a scan. A second `startScan` sets `scanning` back to true and clears the shared `deniedPaths` while the first worker still runs. The model describes one scan at a time.
- `System.out`/`System.err` output and `printStackTrace` are left out.
- The text built from `deniedPaths` for the window is left out; the list itself is modelled.
- SizeFormat.FormatSize: the KB, MB and GB branches keep the unit and the byte count but not the digits of `DecimalFormat("#.##")` applied to a `double` quotient, which is floating point and a library formatter.
- Scanner.FolderScanner.CalculateFolderSize: the `long` accumulator is a `nat`, so overflow past 2^63 − 1 bytes is not modelled.
- Scanner.FolderScanner.ScanEntries: `(int) totalDirs` is not truncated to 32 bits. More than 2^31 − 1 directories would change the divisor in Java.
- `Files.getLastModifiedTime` failing after the size was computed is not modelled. The modification time is part of the tree.
- The file system changing between `countDirectories` and the loop is not modelled. Both read the same tree.
- A listing error of the root is placed after its last entry; an error part-way through the root's stream is not modelled.
- A link's own attributes are taken to be readable. Failing to read the link itself is not modelled; a link that leads nowhere is a link to an unreadable node.
- Ranking.SortBySize: `List.sort` rearranges the list in place. The model computes the sorted list as a new value, with the properties `List.sort` guarantees (order, permutation, stability), not the algorithm it uses.

=== FILE: file_system.dfy ===
/**
 * The file-system tree the folder scanner walks, and the order in which
 * `Files.walkFileTree` (default options, so symbolic links are not followed)
 * hands that tree to a visitor.
 *
 * The tree is finite: without FOLLOW_LINKS a walk never leaves the subtree,
 * so no cycle can arise.  Reference definitions by structural recursion on
 * the tree (TotalSize, DirCount, DeniedPaths, Faultless) sit beside the
 * definitions on the callback sequence, and WalkMatchesTree connects the two.
 */
module FileSystem {

  /** A path, as its `toString()` renders it. */
  type Path = string

  /** A `FileTime`: the scanner only stores it and hands it on. */
  type FileTime = int

  datatype Option<T> = None | Some(value: T)

  /** The exceptions the scanner tells apart: `AccessDeniedException` and every other `IOException`. */
  datatype IoError = AccessDenied | OtherIoError

  /** A value, or the `IOException` that was thrown instead. */
  datatype Result<T> = Ok(value: T) | Err(error: IoError)

  /**
   * One entry of the file system.
   *  - File: an entry whose attributes say "not a directory" and that is
   *    not a symbolic link; `size` is `attrs.size()`.
   *  - Dir: a directory that could be opened; `entries` are what its
   *    directory stream returned, in order, and `iterError` is the exception
   *    that ended that iteration early, if one did.
   *  - LockedDir: a directory whose attributes can be read but which cannot
   *    be opened (for instance, no read permission).
   *  - Unreadable: an entry whose attributes cannot be read.
   *  - Link: a symbolic link; `size` is the size of the link itself, and
   *    `target` is what the link leads to (an Unreadable target for a link
   *    that leads nowhere).
   */
  datatype Node =
    | File(path: Path, size: nat)
    | Dir(path: Path, modified: FileTime, entries: seq<Node>, iterError: Option<IoError>)
    | LockedDir(path: Path, modified: FileTime, error: IoError)
    | Unreadable(path: Path, error: IoError)
    | Link(path: Path, size: nat, target: Node)
  {
    /**
     * `Files.isDirectory(path)`, which follows symbolic links: the
     * attributes of what the path leads to could be read and say "directory".
     */
    predicate IsDirectory()
      decreases this
    {
      Dir? || LockedDir? || (Link? && target.IsDirectory())
    }

    /** `Files.getLastModifiedTime(path)`, which also follows symbolic links. */
    function Modified(): FileTime
      requires IsDirectory()
      decreases this
    {
      if Link? then target.Modified() else modified
    }
  }

  /** What `Files.newDirectoryStream(path)` opens: the node at the end of a chain of links. */
  function Resolve(n: Node): (r: Node)
    ensures !r.Link?
    ensures n.IsDirectory() <==> r.IsDirectory()
    decreases n
  {
    if n.Link? then Resolve(n.target) else n
  }

  /** A call the walk makes on its `FileVisitor`, with the arguments the scanner reads. */
  datatype Event =
    | PreVisitDirectory(dir: Path)
    | VisitFile(file: Path, size: nat)
    | VisitFileFailed(file: Path, exc: IoError)
    | PostVisitDirectory(dir: Path, iterFailure: Option<IoError>)
  {
    /** A `postVisitDirectory` that carries an exception, which `SimpleFileVisitor` rethrows. */
    predicate IsFault() { PostVisitDirectory? && iterFailure.Some? }
  }

  /**
   * The visitor calls `Files.walkFileTree(n, v)` makes, in order, as long as
   * every call returns CONTINUE: a directory that opens gets
   * `preVisitDirectory`, then the walk of each entry, then
   * `postVisitDirectory`; anything else is one `visitFile` or one
   * `visitFileFailed`.  A symbolic link is not followed: it is handed to
   * `visitFile` with its own attributes, whatever it leads to.
   */
  function Walk(n: Node): (evs: seq<Event>)
    ensures |evs| >= 1
    ensures evs[0].PreVisitDirectory? <==> n.Dir?
    ensures n.Dir? ==> |evs| >= |n.entries| + 2
    decreases n
  {
    match n
    case File(p, s) => [VisitFile(p, s)]
    case Dir(p, _, es, e) => [PreVisitDirectory(p)] + WalkEntries(es) + [PostVisitDirectory(p, e)]
    case LockedDir(p, _, e) => [VisitFileFailed(p, e)]
    case Unreadable(p, e) => [VisitFileFailed(p, e)]
    case Link(p, s, _) => [VisitFile(p, s)]
  }

  function WalkEntries(es: seq<Node>): (evs: seq<Event>)
    ensures |evs| >= |es|
    ensures evs == [] <==> es == []
    decreases es
  {
    if es == [] then [] else Walk(es[0]) + WalkEntries(es[1..])
  }

  // ---------------------------------------------------------------------
  // Reference definitions on the tree

  /** The bytes of every file and link under `n`. */
  function TotalSize(n: Node): nat
    decreases n
  {
    match n
    case File(_, s) => s
    case Link(_, s, _) => s
    case Dir(_, _, es, _) => TotalSizes(es)
    case _ => 0
  }

  function TotalSizes(es: seq<Node>): nat
    decreases es
  {
    if es == [] then 0 else TotalSize(es[0]) + TotalSizes(es[1..])
  }

  /** The directories under `n`, `n` included, that could be opened. */
  function DirCount(n: Node): nat
    decreases n
  {
    match n
    case Dir(_, _, es, _) => 1 + DirCounts(es)
    case _ => 0
  }

  function DirCounts(es: seq<Node>): nat
    decreases es
  {
    if es == [] then 0 else DirCount(es[0]) + DirCounts(es[1..])
  }

  /** The paths under `n` that could not be read or opened for lack of permission, in pre-order. */
  function DeniedPaths(n: Node): seq<Path>
    decreases n
  {
    match n
    case Dir(_, _, es, _) => DeniedPathsIn(es)
    case LockedDir(p, _, e) => if e == AccessDenied then [p] else []
    case Unreadable(p, e) => if e == AccessDenied then [p] else []
    case _ => []
  }

  function DeniedPathsIn(es: seq<Node>): seq<Path>
    decreases es
  {
    if es == [] then [] else DeniedPaths(es[0]) + DeniedPathsIn(es[1..])
  }

  /** No directory under `n` stopped listing its entries early. */
  predicate Faultless(n: Node)
    decreases n
  {
    match n
    case Dir(_, _, es, e) => e.None? && AllFaultless(es)
    case _ => true
  }

  predicate AllFaultless(es: seq<Node>)
    decreases es
  {
    es == [] || (Faultless(es[0]) && AllFaultless(es[1..]))
  }

  // ---------------------------------------------------------------------
  // Definitions on the callback sequence

  /** The sizes `visitFile` receives, in visit order. */
  function FileSizes(evs: seq<Event>): seq<nat>
  {
    if evs == [] then []
    else (if evs[0].VisitFile? then [evs[0].size] else []) + FileSizes(evs[1..])
  }

  function Sum(s: seq<nat>): nat
  {
    if s == [] then 0 else s[0] + Sum(s[1..])
  }

  /** The number of `preVisitDirectory` calls. */
  function PreVisits(evs: seq<Event>): nat
  {
    if evs == [] then 0
    else (if evs[0].PreVisitDirectory? then 1 else 0) + PreVisits(evs[1..])
  }

  /** The paths `visitFileFailed` receives with an `AccessDeniedException`, in visit order. */
  function DeniedFiles(evs: seq<Event>): seq<Path>
  {
    if evs == [] then []
    else (if evs[0].VisitFileFailed? && evs[0].exc == AccessDenied then [evs[0].file] else [])
         + DeniedFiles(evs[1..])
  }

  /** The position of the first rethrown `postVisitDirectory` exception, or `|evs|` if there is none. */
  function FirstFault(evs: seq<Event>): (k: nat)
    ensures k <= |evs|
    ensures forall j :: 0 <= j < k ==> !evs[j].IsFault()
    ensures k < |evs| ==> evs[k].IsFault()
  {
    if evs == [] || evs[0].IsFault() then 0 else 1 + FirstFault(evs[1..])
  }

  // ---------------------------------------------------------------------
  // Lemmas

  lemma {:induction false} SumAppend(a: seq<nat>, b: seq<nat>)
    ensures Sum(a + b) == Sum(a) + Sum(b)
  {
    if a == [] {
      assert a + b == b;
    } else {
      assert (a + b)[1..] == a[1..] + b;
      SumAppend(a[1..], b);
    }
  }

  /** A sum over a prefix never exceeds the sum over the whole sequence. */
  lemma SumPrefixBound(s: seq<nat>, j: nat)
    requires j <= |s|
    ensures Sum(s[..j]) <= Sum(s)
  {
    assert s == s[..j] + s[j..];
    SumAppend(s[..j], s[j..]);
  }

  lemma {:induction false} FileSizesAppend(a: seq<Event>, b: seq<Event>)
    ensures FileSizes(a + b) == FileSizes(a) + FileSizes(b)
  {
    if a == [] {
      assert a + b == b;
    } else {
      assert (a + b)[0] == a[0] && (a + b)[1..] == a[1..] + b;
      FileSizesAppend(a[1..], b);
      var head := if a[0].VisitFile? then [a[0].size] else [];
      assert FileSizes(a + b) == head + FileSizes(a[1..] + b);
      assert FileSizes(a) == head + FileSizes(a[1..]);
      assert head + (FileSizes(a[1..]) + FileSizes(b)) == (head + FileSizes(a[1..])) + FileSizes(b);
    }
  }

  lemma {:induction false} PreVisitsAppend(a: seq<Event>, b: seq<Event>)
    ensures PreVisits(a + b) == PreVisits(a) + PreVisits(b)
  {
    if a == [] {
      assert a + b == b;
    } else {
      assert (a + b)[1..] == a[1..] + b;
      PreVisitsAppend(a[1..], b);
    }
  }

  lemma {:induction false} DeniedFilesAppend(a: seq<Event>, b: seq<Event>)
    ensures DeniedFiles(a + b) == DeniedFiles(a) + DeniedFiles(b)
  {
    if a == [] {
      assert a + b == b;
    } else {
      assert (a + b)[0] == a[0] && (a + b)[1..] == a[1..] + b;
      DeniedFilesAppend(a[1..], b);
      var head := if a[0].VisitFileFailed? && a[0].exc == AccessDenied then [a[0].file] else [];
      assert DeniedFiles(a + b) == head + DeniedFiles(a[1..] + b);
      assert DeniedFiles(a) == head + DeniedFiles(a[1..]);
      assert head + (DeniedFiles(a[1..]) + DeniedFiles(b)) == (head + DeniedFiles(a[1..])) + DeniedFiles(b);
    }
  }

  lemma {:induction false} FirstFaultAppend(a: seq<Event>, b: seq<Event>)
    ensures FirstFault(a) < |a| ==> FirstFault(a + b) == FirstFault(a)
    ensures FirstFault(a) == |a| ==> FirstFault(a + b) == |a| + FirstFault(b)
  {
    if a == [] {
      assert a + b == b;
    } else {
      assert (a + b)[0] == a[0];
      assert (a + b)[1..] == a[1..] + b;
      FirstFaultAppend(a[1..], b);
    }
  }

  /** Every definition on the callback sequence distributes over concatenation. */
  lemma EventsAppend(a: seq<Event>, b: seq<Event>)
    ensures FileSizes(a + b) == FileSizes(a) + FileSizes(b)
    ensures PreVisits(a + b) == PreVisits(a) + PreVisits(b)
    ensures DeniedFiles(a + b) == DeniedFiles(a) + DeniedFiles(b)
    ensures FirstFault(a) < |a| ==> FirstFault(a + b) == FirstFault(a)
    ensures FirstFault(a) == |a| ==> FirstFault(a + b) == |a| + FirstFault(b)
  {
    FileSizesAppend(a, b);
    PreVisitsAppend(a, b);
    DeniedFilesAppend(a, b);
    FirstFaultAppend(a, b);
  }

  /** Framing callbacks by one `preVisitDirectory` and one `postVisitDirectory`. */
  lemma FrameEvents(p: Path, body: seq<Event>, e: Option<IoError>)
    ensures var evs := [PreVisitDirectory(p)] + (body + [PostVisitDirectory(p, e)]);
      && FileSizes(evs) == FileSizes(body)
      && PreVisits(evs) == 1 + PreVisits(body)
      && DeniedFiles(evs) == DeniedFiles(body)
      && (FirstFault(evs) == |evs|) == (FirstFault(body) == |body| && e.None?)
  {
    var pre, post := [PreVisitDirectory(p)], [PostVisitDirectory(p, e)];
    EventsAppend(pre, body + post);
    EventsAppend(body, post);
    assert FileSizes(pre) == [] && FileSizes(post) == [];
    assert DeniedFiles(pre) == [] && DeniedFiles(post) == [];
    assert PreVisits(pre) == 1 && PreVisits(post) == 0;
    assert FirstFault(pre) == 1;
    assert FirstFault(post) == (if e.Some? then 0 else 1);
  }

  /** The callbacks of a directory that opens, against those of its entries. */
  lemma DirectoryWalkFramesEntries(n: Node)
    requires n.Dir?
    ensures FileSizes(Walk(n)) == FileSizes(WalkEntries(n.entries))
    ensures PreVisits(Walk(n)) == 1 + PreVisits(WalkEntries(n.entries))
    ensures DeniedFiles(Walk(n)) == DeniedFiles(WalkEntries(n.entries))
    ensures (FirstFault(Walk(n)) == |Walk(n)|)
        == (FirstFault(WalkEntries(n.entries)) == |WalkEntries(n.entries)| && n.iterError.None?)
  {
    FrameEvents(n.path, WalkEntries(n.entries), n.iterError);
    assert Walk(n) == [PreVisitDirectory(n.path)] + (WalkEntries(n.entries) + [PostVisitDirectory(n.path, n.iterError)]);
  }

  /** Folding the walk's callbacks gives the tree's own totals. */
  lemma {:induction false} WalkMatchesTree(n: Node)
    ensures Sum(FileSizes(Walk(n))) == TotalSize(n)
    ensures PreVisits(Walk(n)) == DirCount(n)
    ensures DeniedFiles(Walk(n)) == DeniedPaths(n)
    ensures (FirstFault(Walk(n)) == |Walk(n)|) == Faultless(n)
    decreases n
  {
    if n.Dir? {
      DirectoryWalkFramesEntries(n);
      WalkEntriesMatchTrees(n.entries);
    }
  }

  lemma {:induction false} WalkEntriesMatchTrees(es: seq<Node>)
    ensures Sum(FileSizes(WalkEntries(es))) == TotalSizes(es)
    ensures PreVisits(WalkEntries(es)) == DirCounts(es)
    ensures DeniedFiles(WalkEntries(es)) == DeniedPathsIn(es)
    ensures (FirstFault(WalkEntries(es)) == |WalkEntries(es)|) == AllFaultless(es)
    decreases es
  {
    if es != [] {
      assert WalkEntries(es) == Walk(es[0]) + WalkEntries(es[1..]);
      assert TotalSizes(es) == TotalSize(es[0]) + TotalSizes(es[1..]);
      assert DirCounts(es) == DirCount(es[0]) + DirCounts(es[1..]);
      assert DeniedPathsIn(es) == DeniedPaths(es[0]) + DeniedPathsIn(es[1..]);
      assert AllFaultless(es) == (Faultless(es[0]) && AllFaultless(es[1..]));
      WalkMatchesTree(es[0]);
      WalkEntriesMatchTrees(es[1..]);
      JoinEvents(Walk(es[0]), WalkEntries(es[1..]));
    }
  }

  /** The folds over two callback sequences in a row, as the tree lemmas use them. */
  lemma JoinEvents(a: seq<Event>, b: seq<Event>)
    ensures Sum(FileSizes(a + b)) == Sum(FileSizes(a)) + Sum(FileSizes(b))
    ensures PreVisits(a + b) == PreVisits(a) + PreVisits(b)
    ensures DeniedFiles(a + b) == DeniedFiles(a) + DeniedFiles(b)
    ensures (FirstFault(a + b) == |a + b|) == (FirstFault(a) == |a| && FirstFault(b) == |b|)
  {
    EventsAppend(a, b);
    SumAppend(FileSizes(a), FileSizes(b));
  }

  /** One more callback: how the files visited and their total grow. */
  lemma SizeStep(evs: seq<Event>, i: nat)
    requires i < |evs|
    ensures evs[i].VisitFile? ==>
      FileSizes(evs[..i + 1]) == FileSizes(evs[..i]) + [evs[i].size]
      && Sum(FileSizes(evs[..i + 1])) == Sum(FileSizes(evs[..i])) + evs[i].size
    ensures !evs[i].VisitFile? ==> FileSizes(evs[..i + 1]) == FileSizes(evs[..i])
  {
    assert evs[..i + 1] == evs[..i] + [evs[i]];
    FileSizesAppend(evs[..i], [evs[i]]);
    SumAppend(FileSizes(evs[..i]), FileSizes([evs[i]]));
    assert FileSizes(evs[..i]) + [] == FileSizes(evs[..i]);
  }

  /** One more callback: how the directories counted and the paths denied grow. */
  lemma CountStep(evs: seq<Event>, i: nat)
    requires i < |evs|
    ensures PreVisits(evs[..i + 1]) == PreVisits(evs[..i]) + (if evs[i].PreVisitDirectory? then 1 else 0)
    ensures evs[i].VisitFileFailed? && evs[i].exc == AccessDenied ==>
      DeniedFiles(evs[..i + 1]) == DeniedFiles(evs[..i]) + [evs[i].file]
    ensures !(evs[i].VisitFileFailed? && evs[i].exc == AccessDenied) ==>
      DeniedFiles(evs[..i + 1]) == DeniedFiles(evs[..i])
  {
    assert evs[..i + 1] == evs[..i] + [evs[i]];
    PreVisitsAppend(evs[..i], [evs[i]]);
    DeniedFilesAppend(evs[..i], [evs[i]]);
    assert DeniedFiles(evs[..i]) + [] == DeniedFiles(evs[..i]);
  }

  /** Without a rethrown exception the walk runs to its end, and its callbacks give the tree's totals. */
  lemma FaultlessWalkIsWhole(n: Node)
    requires Faultless(n)
    ensures FirstFault(Walk(n)) == |Walk(n)|
    ensures PreVisits(Walk(n)[..FirstFault(Walk(n))]) == DirCount(n)
    ensures DeniedFiles(Walk(n)[..FirstFault(Walk(n))]) == DeniedPaths(n)
  {
    WalkMatchesTree(n);
    assert Walk(n)[..|Walk(n)|] == Walk(n);
  }

  /**
   * The files visited in the first `i` callbacks are a prefix of those
   * visited in the first `k`, and a strictly shorter one when callback `i`
   * is itself a `visitFile`.
   */
  lemma FileSizesPrefix(evs: seq<Event>, i: nat, k: nat)
    requires i <= k <= |evs|
    ensures |FileSizes(evs[..i])| <= |FileSizes(evs[..k])|
    ensures FileSizes(evs[..k])[..|FileSizes(evs[..i])|] == FileSizes(evs[..i])
    ensures i < k && evs[i].VisitFile? ==> |FileSizes(evs[..i])| < |FileSizes(evs[..k])|
  {
    assert evs[..k] == evs[..i] + evs[i..k];
    EventsAppend(evs[..i], evs[i..k]);
    if i < k {
      assert evs[i..k][0] == evs[i];
    }
  }

  /** The files of a prefix of the callbacks hold no more bytes than those of all of them. */
  lemma PrefixSizesBound(evs: seq<Event>, k: nat)
    requires k <= |evs|
    ensures Sum(FileSizes(evs[..k])) <= Sum(FileSizes(evs))
  {
    assert evs == evs[..k] + evs[k..];
    FileSizesAppend(evs[..k], evs[k..]);
    SumAppend(FileSizes(evs[..k]), FileSizes(evs[k..]));
  }

  /** A directory that opens is counted by its own first callback, before anything can fail. */
  lemma DirectoryWalkStartsWithPreVisit(n: Node)
    requires n.Dir?
    ensures FirstFault(Walk(n)) >= 1
    ensures PreVisits(Walk(n)[..FirstFault(Walk(n))]) >= 1
  {
    var evs := Walk(n);
    var k := FirstFault(evs);
    assert evs[0] == PreVisitDirectory(n.path);
    assert evs[..k] == [evs[0]] + evs[1..k];
    EventsAppend([evs[0]], evs[1..k]);
  }

  /**
   * Of the roots a directory stream can be opened on, a symbolic link is
   * the one whose walk counts no directory: the walk does not follow it.
   */
  lemma RootCountIsZeroOnlyForLink(n: Node)
    requires Resolve(n).Dir?
    ensures PreVisits(Walk(n)[..FirstFault(Walk(n))]) == 0 <==> n.Link?
    ensures n.Link? ==> DeniedFiles(Walk(n)[..FirstFault(Walk(n))]) == []
  {
    if n.Link? {
      var evs := Walk(n);
      assert evs == [VisitFile(n.path, n.size)];
      assert FirstFault(evs) == 1 && evs[..1] == evs;
    } else {
      DirectoryWalkStartsWithPreVisit(n);
    }
  }
}

=== FILE: folder_info.dfy ===
/**
 * The record the scan builds for each immediate subdirectory of the root.
 * It is a value: its three fields are set once, by the constructor, and
 * only read afterwards, so a datatype models it exactly.
 */
module FolderRecords {
  import opened FileSystem

  datatype FolderInfo = FolderInfo(path: Path, size: int, lastModifiedTime: FileTime)
  {
    function GetPath(): Path { path }

    /** The key the ranking sorts on. */
    function GetSize(): int { size }

    function GetLastModifiedTime(): FileTime { lastModifiedTime }
  }

  /** Each getter returns exactly the argument the constructor was given. */
  lemma GettersReturnConstructorArguments(path: Path, size: int, lastModifiedTime: FileTime)
    ensures FolderInfo(path, size, lastModifiedTime).GetPath() == path
    ensures FolderInfo(path, size, lastModifiedTime).GetSize() == size
    ensures FolderInfo(path, size, lastModifiedTime).GetLastModifiedTime() == lastModifiedTime
  {
  }
}

=== FILE: ranking.dfy ===
/**
 * The ranking of the collected records: `List.sort` with a comparator on
 * the negated size, that is, largest size first.  `List.sort` is stable, so
 * records of equal size keep the order in which the scan collected them.
 * The sort is modelled by a stable insertion sort; what is proved about it
 * (order, permutation, stability) is all a caller of `List.sort` may rely on.
 */
module Ranking {
  import opened FolderRecords

  /** Largest size first: no record is larger than the one before it. */
  predicate NonIncreasing(s: seq<FolderInfo>)
  {
    forall i :: 0 < i < |s| ==> s[i - 1].GetSize() >= s[i].GetSize()
  }

  lemma {:induction false} NoLaterRecordIsLarger(s: seq<FolderInfo>, i: int, j: int)
    requires NonIncreasing(s) && 0 <= i <= j < |s|
    ensures s[i].GetSize() >= s[j].GetSize()
    decreases j - i
  {
    if i < j {
      NoLaterRecordIsLarger(s, i, j - 1);
    }
  }

  /** The ranking order compares every pair of records, not only neighbours. */
  lemma NonIncreasingOrdersEveryPair(s: seq<FolderInfo>)
    requires NonIncreasing(s)
    ensures forall i, j :: 0 <= i < j < |s| ==> s[i].GetSize() >= s[j].GetSize()
  {
    forall i, j | 0 <= i < j < |s| ensures s[i].GetSize() >= s[j].GetSize() {
      NoLaterRecordIsLarger(s, i, j);
    }
  }

  /** Dropping the first record keeps the order. */
  lemma TailNonIncreasing(s: seq<FolderInfo>)
    requires NonIncreasing(s) && s != []
    ensures NonIncreasing(s[1..])
  {
    var t := s[1..];
    forall i | 0 < i < |t| ensures t[i - 1].GetSize() >= t[i].GetSize() {
      assert t[i - 1] == s[i] && t[i] == s[i + 1];
    }
  }

  /** A record no smaller than the first of an ordered sequence can go in front of it. */
  lemma ConsNonIncreasing(y: FolderInfo, t: seq<FolderInfo>)
    requires NonIncreasing(t) && (t != [] ==> y.GetSize() >= t[0].GetSize())
    ensures NonIncreasing([y] + t)
  {
    var r := [y] + t;
    forall i | 0 < i < |r| ensures r[i - 1].GetSize() >= r[i].GetSize() {
      if i > 1 {
        assert r[i - 1] == t[i - 2] && r[i] == t[i - 1];
      }
    }
  }

  /**
   * Puts `x` in front of the first record that is not larger than it, so
   * that `x` stays ahead of the records of equal size that follow it.
   */
  function Insert(x: FolderInfo, s: seq<FolderInfo>): (r: seq<FolderInfo>)
    requires NonIncreasing(s)
    ensures NonIncreasing(r)
    ensures multiset(r) == multiset(s) + multiset{x}
    ensures |r| == |s| + 1 && (r[0] == x || (s != [] && r[0] == s[0]))
    decreases |s|
  {
    if s == [] || x.GetSize() >= s[0].GetSize() then
      ConsNonIncreasing(x, s);
      [x] + s
    else
      TailNonIncreasing(s);
      var rest := Insert(x, s[1..]);
      assert s == [s[0]] + s[1..];
      assert |s| > 1 ==> s[0].GetSize() >= s[1].GetSize();
      ConsNonIncreasing(s[0], rest);
      [s[0]] + rest
  }

  /** The ranking: the records sorted by size, largest first, stably. */
  function SortBySize(s: seq<FolderInfo>): (r: seq<FolderInfo>)
    ensures NonIncreasing(r)
    ensures multiset(r) == multiset(s)
  {
    if s == [] then []
    else
      assert s == [s[0]] + s[1..];
      Insert(s[0], SortBySize(s[1..]))
  }

  /** The records of `s` whose size is `size`, in their order in `s`. */
  function WithSize(s: seq<FolderInfo>, size: int): seq<FolderInfo>
  {
    if s == [] then []
    else (if s[0].GetSize() == size then [s[0]] else []) + WithSize(s[1..], size)
  }

  /** The records of a given size in `[y] + t`: `y` if it has that size, then those of `t`. */
  lemma WithSizeCons(y: FolderInfo, t: seq<FolderInfo>, size: int)
    ensures WithSize([y] + t, size) == Tie(y, size) + WithSize(t, size)
  {
    assert ([y] + t)[0] == y && ([y] + t)[1..] == t;
  }

  /** The records of size `size` that `x` brings: itself, or none. */
  function Tie(x: FolderInfo, size: int): seq<FolderInfo>
  {
    if x.GetSize() == size then [x] else []
  }

  /** A record larger than `x` in front of both sides keeps `x`'s ties ahead of the others. */
  lemma TiesBehindLarger(h: FolderInfo, x: FolderInfo, rest: seq<FolderInfo>, tail: seq<FolderInfo>, size: int)
    requires h.GetSize() > x.GetSize()
    requires WithSize(rest, size) == Tie(x, size) + WithSize(tail, size)
    ensures WithSize([h] + rest, size) == Tie(x, size) + WithSize([h] + tail, size)
  {
    WithSizeCons(h, rest, size);
    WithSizeCons(h, tail, size);
    var others := WithSize(tail, size);
    // at most one of `h` and `x` has the size
    if x.GetSize() == size {
      assert Tie(h, size) == [] && Tie(x, size) == [x];
      assert WithSize([h] + rest, size) == [x] + others;
      assert WithSize([h] + tail, size) == others;
    } else {
      assert Tie(x, size) == [];
      assert WithSize(rest, size) == others;
    }
  }

  lemma {:induction false} InsertKeepsTiesInOrder(x: FolderInfo, s: seq<FolderInfo>, size: int)
    requires NonIncreasing(s)
    ensures WithSize(Insert(x, s), size) == Tie(x, size) + WithSize(s, size)
    decreases |s|
  {
    if s == [] || x.GetSize() >= s[0].GetSize() {
      assert Insert(x, s) == [x] + s;
      WithSizeCons(x, s, size);
    } else {
      TailNonIncreasing(s);
      var tail := s[1..];
      InsertKeepsTiesInOrder(x, tail, size);
      TiesBehindLarger(s[0], x, Insert(x, tail), tail, size);
      assert Insert(x, s) == [s[0]] + Insert(x, tail);
      assert s == [s[0]] + tail;
    }
  }

  /** Stability: for every size, the records of that size appear in the order they were collected. */
  lemma {:induction false} SortIsStable(s: seq<FolderInfo>, size: int)
    ensures WithSize(SortBySize(s), size) == WithSize(s, size)
  {
    if s != [] {
      SortIsStable(s[1..], size);
      InsertKeepsTiesInOrder(s[0], SortBySize(s[1..]), size);
    }
  }

  /** Two records already in order stay as they are. */
  lemma SortOfOrderedPair(x: FolderInfo, y: FolderInfo)
    requires x.size >= y.size
    ensures SortBySize([x, y]) == [x, y]
  {
    assert [y][1..] == [];
    assert SortBySize([y]) == [y];
    assert [x, y][1..] == [y];
  }

  /** The ranking of records of a scan that found A (5000 bytes), B (15,000,000 bytes) and C (0 bytes): B, A, C. */
  lemma ExampleRanking(ra: FolderInfo, rb: FolderInfo, rc: FolderInfo)
    requires ra.size == 5000 && rb.size == 15000000 && rc.size == 0
    ensures SortBySize([ra, rb, rc]) == [rb, ra, rc]
  {
    SortOfOrderedPair(rb, rc);
    assert [ra, rb, rc][1..] == [rb, rc];
    assert [rb, rc][1..] == [rc];
    assert Insert(ra, [rc]) == [ra, rc];
  }
}

=== FILE: scanner.dfy ===
/**
 * The scan pipeline of `FolderScannerUI`: the directory count that sizes
 * the progress bar, the size of each immediate subdirectory, the loop over
 * the root's entries with its cooperative cancellation, the ranking and the
 * top-ten report, and the list of denied paths.
 *
 * The `scanning` flag is written by the stop button and read by the worker.
 * While no other scan is started, it only goes from true to false, so the
 * values the worker reads are some number of `true`s followed by `false`s.
 * The model takes that number as an input, `live`: each read of the flag
 * that sees true uses up one, and once none is left every read sees false.
 * A second scan started while a worker runs sets the flag back to true and
 * clears the shared denied list under that worker; the model describes one
 * scan at a time.
 */
module Scanner {
  import opened FileSystem
  import opened FolderRecords
  import opened Ranking
  import opened SizeFormat

  /** How many records the report shows. */
  const TOP_N: nat := 10

  /** What `countDirectories` puts in front of each denied path. */
  const DENIED_PREFIX: string := "Access denied to: "

  function Min(a: nat, b: nat): nat { if a < b then a else b }

  /** The entries `countDirectories` appends to `deniedPaths` for the given paths. */
  function Messages(paths: seq<Path>): (m: seq<string>)
    ensures |m| == |paths|
    ensures forall i :: 0 <= i < |m| ==>
      |m[i]| >= |DENIED_PREFIX| && m[i][..|DENIED_PREFIX|] == DENIED_PREFIX && m[i][|DENIED_PREFIX|..] == paths[i]
  {
    seq(|paths|, i requires 0 <= i < |paths| => DENIED_PREFIX + paths[i])
  }

  /** One more denied path adds one message at the end. */
  lemma MessagesAppendOne(paths: seq<Path>, p: Path)
    ensures Messages(paths + [p]) == Messages(paths) + [DENIED_PREFIX + p]
  {
    var lhs, rhs := Messages(paths + [p]), Messages(paths) + [DENIED_PREFIX + p];
    assert |lhs| == |rhs|;
    forall i | 0 <= i < |lhs| ensures lhs[i] == rhs[i] {
      if i < |paths| {
        assert (paths + [p])[i] == paths[i];
      }
    }
  }

  /** One more callback of `countDirectories`: how the count and the messages grow. */
  lemma CountMessagesStep(evs: seq<Event>, i: nat)
    requires i < |evs|
    ensures PreVisits(evs[..i + 1]) == PreVisits(evs[..i]) + (if evs[i].PreVisitDirectory? then 1 else 0)
    ensures evs[i].VisitFileFailed? && evs[i].exc == AccessDenied ==>
      Messages(DeniedFiles(evs[..i + 1])) == Messages(DeniedFiles(evs[..i])) + [DENIED_PREFIX + evs[i].file]
    ensures !(evs[i].VisitFileFailed? && evs[i].exc == AccessDenied) ==>
      Messages(DeniedFiles(evs[..i + 1])) == Messages(DeniedFiles(evs[..i]))
  {
    CountStep(evs, i);
    if evs[i].VisitFileFailed? && evs[i].exc == AccessDenied {
      MessagesAppendOne(DeniedFiles(evs[..i]), evs[i].file);
    }
  }

  // ---------------------------------------------------------------------
  // calculateFolderSize

  /** What `calculateFolderSize` returns or throws, and how many reads of `scanning` still see true afterwards. */
  datatype Walked = Walked(result: Result<nat>, live: nat)

  /**
   * What the visitor of `calculateFolderSize` makes of the callbacks `evs`
   * when `live` more reads of `scanning` see true.  It adds up the sizes
   * that `visitFile` receives; a `visitFile` that reads false returns
   * TERMINATE before adding, and the walk ends with the partial sum; the
   * first exception that `postVisitDirectory` rethrows leaves the method
   * instead.  Failed visits add nothing.
   */
  function VisitedSize(evs: seq<Event>, live: nat): (w: Walked)
    ensures w.live <= live
    ensures w.result.Err? ==> FirstFault(evs) < |evs|
  {
    var k := FirstFault(evs);
    var visited := FileSizes(evs[..k]);
    if live < |visited| then Walked(Ok(Sum(visited[..live])), 0)
    else if k < |evs| then Walked(Err(evs[k].iterFailure.value), live - |visited|)
    else Walked(Ok(Sum(visited)), live - |visited|)
  }

  /** `calculateFolderSize(dir)`: that visitor over the walk of `dir`; it throws only when a listing in the subtree fails. */
  function FolderSize(dir: Node, live: nat): (w: Walked)
    ensures w.live <= live
    ensures w.result.Err? ==> !Faultless(dir)
  {
    WalkMatchesTree(dir);
    VisitedSize(Walk(dir), live)
  }

  /** `visitFile` at position `i` reads false: the walk returns what it added before. */
  lemma SizeStopsWhenCancelled(evs: seq<Event>, live: nat, i: nat)
    requires i < FirstFault(evs) && evs[i].VisitFile?
    requires |FileSizes(evs[..i])| == live
    ensures VisitedSize(evs, live) == Walked(Ok(Sum(FileSizes(evs[..i]))), 0)
  {
    FileSizesPrefix(evs, i, FirstFault(evs));
  }

  /** `postVisitDirectory` at position `i` rethrows: the walk throws that exception. */
  lemma SizeStopsAtFault(evs: seq<Event>, live: nat, i: nat)
    requires i < |evs| && evs[i].IsFault()
    requires forall j :: 0 <= j < i ==> !evs[j].IsFault()
    requires |FileSizes(evs[..i])| <= live
    ensures VisitedSize(evs, live) == Walked(Err(evs[i].iterFailure.value), live - |FileSizes(evs[..i])|)
  {
    assert FirstFault(evs) == i;
  }

  /** The walk ran to its end: it returns the sum of every size visited. */
  lemma SizeAtEndOfWalk(evs: seq<Event>, live: nat)
    requires FirstFault(evs) == |evs|
    requires |FileSizes(evs)| <= live
    ensures VisitedSize(evs, live) == Walked(Ok(Sum(FileSizes(evs))), live - |FileSizes(evs)|)
  {
    assert evs[..|evs|] == evs;
  }

  /** The files visited before the first rethrown exception hold no more bytes than the whole subtree. */
  lemma VisitedBeforeFaultBound(dir: Node)
    ensures Sum(FileSizes(Walk(dir)[..FirstFault(Walk(dir))])) <= TotalSize(dir)
  {
    var evs := Walk(dir);
    PrefixSizesBound(evs, FirstFault(evs));
    WalkMatchesTree(dir);
  }

  /**
   * A size returned under cancellation is a sum over a prefix of the visit
   * order, so it never exceeds the subtree's total; with the flag true
   * throughout and no rethrown exception it is the subtree's total.
   */
  lemma FolderSizeBounds(dir: Node, live: nat)
    ensures FolderSize(dir, live).live <= live
    ensures FolderSize(dir, live).result.Ok? ==> FolderSize(dir, live).result.value <= TotalSize(dir)
    ensures live == 0 && FolderSize(dir, live).result.Ok? ==> FolderSize(dir, live).result.value == 0
    ensures Faultless(dir) && live >= |FileSizes(Walk(dir))| ==>
      FolderSize(dir, live) == Walked(Ok(TotalSize(dir)), live - |FileSizes(Walk(dir))|)
  {
    var evs := Walk(dir);
    VisitedBeforeFaultBound(dir);
    VisitedSizeBounds(evs, live);
    assert FolderSize(dir, live) == VisitedSize(evs, live);
    if Faultless(dir) {
      WalkMatchesTree(dir);
    }
  }

  /** The same bounds for any sequence of visitor calls, measured against the sizes before the first rethrow. */
  lemma VisitedSizeBounds(evs: seq<Event>, live: nat)
    ensures VisitedSize(evs, live).result.Ok? ==>
      VisitedSize(evs, live).result.value <= Sum(FileSizes(evs[..FirstFault(evs)]))
    ensures live == 0 && VisitedSize(evs, live).result.Ok? ==> VisitedSize(evs, live).result.value == 0
    ensures FirstFault(evs) == |evs| && live >= |FileSizes(evs)| ==>
      VisitedSize(evs, live) == Walked(Ok(Sum(FileSizes(evs))), live - |FileSizes(evs)|)
  {
    var k := FirstFault(evs);
    var visited := FileSizes(evs[..k]);
    var w := VisitedSize(evs, live);
    if k == |evs| {
      assert evs[..k] == evs;
    }
    if live < |visited| {
      SumPrefixBound(visited, live);
      assert w == Walked(Ok(Sum(visited[..live])), 0);
      if live == 0 {
        assert visited[..0] == [];
      }
    } else if k == |evs| {
      assert w == Walked(Ok(Sum(visited)), live - |visited|);
    }
  }

  // ---------------------------------------------------------------------
  // The loop over the root's entries

  /** How the loop over the root's entries ended. */
  datatype LoopExit =
    | Exhausted   // the stream had no more entries
    | Cancelled   // `scanning` read false before an entry
    | Aborted     // an IOException other than AccessDeniedException left the loop
    | DividedByZero  // the progress value of the first entry divided by a directory count of 0

  /** The records collected, the value of `dirsScanned`, and how the loop ended. */
  datatype ScanRun = ScanRun(records: seq<FolderInfo>, scanned: nat, exit: LoopExit)

  /** A run of the rest of the loop, after `done` was collected over `n` earlier entries. */
  function After(done: seq<FolderInfo>, n: nat, rest: ScanRun): ScanRun
  {
    ScanRun(done + rest.records, n + rest.scanned, rest.exit)
  }

  /**
   * The loop over the root's entries when `live` more reads of `scanning`
   * see true: check the flag, and for a directory compute its size, then
   * read its last-modified time and collect a record; an
   * AccessDeniedException skips the record, any other IOException ends the
   * loop; every entry that gets past the flag check is counted.
   */
  function Scan(entries: seq<Node>, live: nat): (run: ScanRun)
    ensures |run.records| <= run.scanned <= |entries|
    ensures run.scanned <= live
    ensures run.exit == Exhausted ==> run.scanned == |entries|
    ensures run.exit == Cancelled ==> run.scanned < |entries|
    ensures run.exit != DividedByZero
    decreases |entries|
  {
    if entries == [] then ScanRun([], 0, Exhausted)
    else if live == 0 then ScanRun([], 0, Cancelled)
    else
      var e := entries[0];
      if !e.IsDirectory() then After([], 1, Scan(entries[1..], live - 1))
      else
        var w := FolderSize(e, live - 1);
        match w.result
        case Ok(size) => After([FolderInfo(e.path, size, e.Modified())], 1, Scan(entries[1..], w.live))
        case Err(AccessDenied) => After([], 1, Scan(entries[1..], w.live))
        case Err(OtherIoError) => ScanRun([], 0, Aborted)
  }

  /** Scan of a stream whose first entry is a directory, once that directory's size is known. */
  lemma ScanOfDirectory(es: seq<Node>, live: nat, r: Result<nat>, left: nat)
    requires es != [] && live > 0 && es[0].IsDirectory()
    requires Walked(r, left) == FolderSize(es[0], live - 1)
    ensures r.Ok? ==> Scan(es, live) == After([FolderInfo(es[0].path, r.value, es[0].Modified())], 1, Scan(es[1..], left))
    ensures r == Err(AccessDenied) ==> Scan(es, live) == After([], 1, Scan(es[1..], left))
    ensures r == Err(OtherIoError) ==> Scan(es, live) == ScanRun([], 0, Aborted)
  {
  }

  /** One more non-directory entry past the flag check, in the middle of a run `whole`. */
  lemma ScanStepOverFile(whole: ScanRun, entries: seq<Node>, records: seq<FolderInfo>, i: nat, cur: nat)
    requires i < |entries| && cur > 0 && !entries[i].IsDirectory()
    requires whole == After(records, i, Scan(entries[i..], cur))
    ensures whole == After(records, i + 1, Scan(entries[i + 1..], cur - 1))
  {
    var here := entries[i..];
    assert here[0] == entries[i] && here[1..] == entries[i + 1..];
    var rest := Scan(entries[i + 1..], cur - 1);
    assert Scan(here, cur) == ScanRun(rest.records, 1 + rest.scanned, rest.exit);
    assert records + [] == records;
  }

  /** One more directory entry past the flag check, once its size is known, in the middle of a run `whole`. */
  lemma ScanStepOverDirectory(whole: ScanRun, entries: seq<Node>, records: seq<FolderInfo>, i: nat, cur: nat, r: Result<nat>, left: nat)
    requires i < |entries| && cur > 0 && entries[i].IsDirectory()
    requires Walked(r, left) == FolderSize(entries[i], cur - 1)
    requires whole == After(records, i, Scan(entries[i..], cur))
    ensures r.Ok? ==>
      whole == After(records + [FolderInfo(entries[i].path, r.value, entries[i].Modified())], i + 1, Scan(entries[i + 1..], left))
    ensures r == Err(AccessDenied) ==> whole == After(records, i + 1, Scan(entries[i + 1..], left))
    ensures r == Err(OtherIoError) ==> whole == ScanRun(records, i, Aborted)
  {
    var here := entries[i..];
    assert here[0] == entries[i] && here[1..] == entries[i + 1..];
    ScanOfDirectory(here, cur, r, left);
    var rest := Scan(entries[i + 1..], left);
    if r.Ok? {
      AfterOfAfter(records, i, [FolderInfo(entries[i].path, r.value, entries[i].Modified())], 1, rest);
    } else if r.error == AccessDenied {
      AfterOfAfter(records, i, [], 1, rest);
      assert records + [] == records;
    } else {
      assert records + [] == records;
    }
  }

  /** Two stretches of a run, one after the other, make one stretch. */
  lemma AfterOfAfter(records: seq<FolderInfo>, i: nat, done: seq<FolderInfo>, n: nat, rest: ScanRun)
    ensures After(records, i, After(done, n, rest)) == After(records + done, i + n, rest)
  {
    assert records + (done + rest.records) == (records + done) + rest.records;
  }

  /** The flag reads false before entry `i`: the run `whole` ends there. */
  lemma ScanStopsWhenCancelled(whole: ScanRun, entries: seq<Node>, records: seq<FolderInfo>, i: nat)
    requires i < |entries|
    requires whole == After(records, i, Scan(entries[i..], 0))
    ensures whole == ScanRun(records, i, Cancelled)
  {
    assert entries[i..] != [];
    assert records + [] == records;
  }

  /** The stream has no entry left: the run `whole` ends there. */
  lemma ScanStopsWhenExhausted(whole: ScanRun, entries: seq<Node>, records: seq<FolderInfo>, cur: nat)
    requires whole == After(records, |entries|, Scan(entries[|entries|..], cur))
    ensures whole == ScanRun(records, |entries|, Exhausted)
  {
    assert entries[|entries|..] == [];
    assert records + [] == records;
  }

  /** The reads of `scanning` a loop over `entries` makes when none of them sees false. */
  function Checks(entries: seq<Node>): nat
  {
    if entries == [] then 0
    else 1 + (if entries[0].IsDirectory() then |FileSizes(Walk(entries[0]))| else 0) + Checks(entries[1..])
  }

  /** One record per directory entry, in enumeration order, carrying the subtree's total size. */
  function FullRecords(entries: seq<Node>): seq<FolderInfo>
  {
    if entries == [] then []
    else
      var e := entries[0];
      (if e.IsDirectory() then [FolderInfo(e.path, TotalSize(e), e.Modified())] else []) + FullRecords(entries[1..])
  }

  /** `r` describes directory `d`: its path, its modification time, and no more than its subtree's bytes. */
  predicate Describes(r: FolderInfo, d: Node)
    requires d.IsDirectory()
  {
    r.GetPath() == d.path && r.GetLastModifiedTime() == d.Modified() && 0 <= r.GetSize() <= TotalSize(d)
  }

  /** Each record describes a different directory entry, in enumeration order. */
  predicate Embeds(records: seq<FolderInfo>, entries: seq<Node>)
    decreases |entries|
  {
    if records == [] then true
    else if entries == [] then false
    else
      (entries[0].IsDirectory() && Describes(records[0], entries[0]) && Embeds(records[1..], entries[1..]))
      || Embeds(records, entries[1..])
  }

  /**
   * Whatever the flag does: only directory entries yield records, in
   * enumeration order, each no larger than its subtree; at most one entry
   * is counted per stream entry, and all of them when the stream runs out.
   */
  lemma {:induction false} ScanRecordsComeFromDirectories(entries: seq<Node>, live: nat)
    ensures Embeds(Scan(entries, live).records, entries)
    ensures Scan(entries, live).scanned <= |entries|
    ensures Scan(entries, live).exit == Exhausted ==> Scan(entries, live).scanned == |entries|
    decreases |entries|
  {
    if entries != [] && live > 0 {
      if !entries[0].IsDirectory() {
        ScanRecordsComeFromDirectories(entries[1..], live - 1);
        RecordsStepOverFile(entries, live);
      } else {
        ScanRecordsComeFromDirectories(entries[1..], FolderSize(entries[0], live - 1).live);
        RecordsStepOverDirectory(entries, live);
      }
    }
  }

  /** The inductive step of ScanRecordsComeFromDirectories for an entry that is not a directory. */
  lemma RecordsStepOverFile(entries: seq<Node>, live: nat)
    requires entries != [] && live > 0 && !entries[0].IsDirectory()
    requires var rest := Scan(entries[1..], live - 1);
      Embeds(rest.records, entries[1..]) && rest.scanned <= |entries| - 1
      && (rest.exit == Exhausted ==> rest.scanned == |entries| - 1)
    ensures Embeds(Scan(entries, live).records, entries)
    ensures Scan(entries, live).scanned <= |entries|
    ensures Scan(entries, live).exit == Exhausted ==> Scan(entries, live).scanned == |entries|
  {
    var rest := Scan(entries[1..], live - 1);
    assert Scan(entries, live) == ScanRun(rest.records, 1 + rest.scanned, rest.exit);
    EmbedsSkip(rest.records, entries);
  }

  /** The inductive step of ScanRecordsComeFromDirectories for a directory entry. */
  lemma RecordsStepOverDirectory(entries: seq<Node>, live: nat)
    requires entries != [] && live > 0 && entries[0].IsDirectory()
    requires var rest := Scan(entries[1..], FolderSize(entries[0], live - 1).live);
      Embeds(rest.records, entries[1..]) && rest.scanned <= |entries| - 1
      && (rest.exit == Exhausted ==> rest.scanned == |entries| - 1)
    ensures Embeds(Scan(entries, live).records, entries)
    ensures Scan(entries, live).scanned <= |entries|
    ensures Scan(entries, live).exit == Exhausted ==> Scan(entries, live).scanned == |entries|
  {
    var e := entries[0];
    var w := FolderSize(e, live - 1);
    var rest := Scan(entries[1..], w.live);
    match w.result
    case Ok(size) =>
      FolderSizeBounds(e, live - 1);
      var rec := FolderInfo(e.path, size, e.Modified());
      assert Scan(entries, live) == ScanRun([rec] + rest.records, 1 + rest.scanned, rest.exit);
      EmbedsCons(rec, rest.records, entries);
    case Err(AccessDenied) =>
      assert Scan(entries, live) == ScanRun(rest.records, 1 + rest.scanned, rest.exit);
      EmbedsSkip(rest.records, entries);
    case Err(OtherIoError) =>
  }

  lemma EmbedsCons(rec: FolderInfo, records: seq<FolderInfo>, entries: seq<Node>)
    requires entries != [] && entries[0].IsDirectory() && Describes(rec, entries[0])
    requires Embeds(records, entries[1..])
    ensures Embeds([rec] + records, entries)
  {
    assert ([rec] + records)[1..] == records;
  }

  lemma EmbedsSkip(records: seq<FolderInfo>, entries: seq<Node>)
    requires entries != [] && Embeds(records, entries[1..])
    ensures Embeds(records, entries)
  {
  }

  /**
   * With `scanning` true throughout and no directory listing cut short,
   * every entry is counted and every directory entry yields one record
   * with its subtree's full size, in enumeration order.
   */
  lemma {:induction false} ScanWithoutStop(entries: seq<Node>, live: nat)
    requires AllFaultless(entries)
    requires live >= Checks(entries)
    ensures Scan(entries, live) == ScanRun(FullRecords(entries), |entries|, Exhausted)
    decreases |entries|
  {
    if entries != [] {
      var e, rest := entries[0], entries[1..];
      assert Faultless(e) && AllFaultless(rest);
      if e.IsDirectory() {
        var n := |FileSizes(Walk(e))|;
        assert Checks(entries) == 1 + n + Checks(rest);
        FolderSizeBounds(e, live - 1);
        assert FolderSize(e, live - 1) == Walked(Ok(TotalSize(e)), live - 1 - n);
        ScanWithoutStop(rest, live - 1 - n);
        assert FullRecords(entries) == [FolderInfo(e.path, TotalSize(e), e.Modified())] + FullRecords(rest);
      } else {
        ScanWithoutStop(rest, live - 1);
        assert FullRecords(entries) == [] + FullRecords(rest);
      }
    }
  }

  /**
   * A root holding A (one 5000-byte file), B (one 15,000,000-byte file)
   * and C, a subdirectory that cannot be opened for lack of permission.
   */
  function ExampleRoot(root: Path, a: Path, b: Path, c: Path, ta: FileTime, tb: FileTime, tc: FileTime): Node
  {
    Dir(root, 0, [Dir(a, ta, [File(a + "/data.bin", 5000)], None),
                  Dir(b, tb, [File(b + "/data.bin", 15000000)], None),
                  LockedDir(c, tc, AccessDenied)], None)
  }

  /** A directory holding one file, listed without error. */
  lemma OneFileDirectory(p: Path, f: Path, t: FileTime, size: nat)
    ensures var d := Dir(p, t, [File(f, size)], None);
      Faultless(d) && TotalSize(d) == size && DeniedPaths(d) == [] && DirCount(d) == 1
  {
    var es := [File(f, size)];
    assert es[0] == File(f, size) && es[1..] == [];
    assert TotalSizes(es) == size;
    assert DeniedPathsIn(es) == [];
    assert DirCounts(es) == 0;
    assert Faultless(es[0]) && AllFaultless(es[1..]);
    assert AllFaultless(es);
  }

  /** No listing under ExampleRoot fails, and A and B each hold one file. */
  lemma ExampleRootIsFaultless(root: Path, a: Path, b: Path, c: Path, ta: FileTime, tb: FileTime, tc: FileTime)
    ensures AllFaultless(ExampleRoot(root, a, b, c, ta, tb, tc).entries)
    ensures Faultless(ExampleRoot(root, a, b, c, ta, tb, tc))
  {
    var es := ExampleRoot(root, a, b, c, ta, tb, tc).entries;
    var da, db, dc := es[0], es[1], es[2];
    OneFileDirectory(a, a + "/data.bin", ta, 5000);
    OneFileDirectory(b, b + "/data.bin", tb, 15000000);
    assert es[1..] == [db, dc] && [db, dc][1..] == [dc] && [dc][1..] == [];
    assert dc == LockedDir(c, tc, AccessDenied) && Faultless(dc) && AllFaultless([dc][1..]);
    assert AllFaultless([dc]);
    assert AllFaultless([db, dc]);
    assert Faultless(es[0]) && AllFaultless(es[1..]);
    assert AllFaultless(es);
  }

  /**
   * Scanning ExampleRoot with the flag true throughout: C still yields a
   * record, of size 0, because the walk's `visitFileFailed` swallows the
   * denial.
   */
  lemma ExampleScanKeepsDeniedSubdirectory(root: Path, a: Path, b: Path, c: Path, ta: FileTime, tb: FileTime, tc: FileTime)
    ensures var es := ExampleRoot(root, a, b, c, ta, tb, tc).entries;
      Scan(es, Checks(es)) == ScanRun([FolderInfo(a, 5000, ta), FolderInfo(b, 15000000, tb), FolderInfo(c, 0, tc)], 3, Exhausted)
  {
    var es := ExampleRoot(root, a, b, c, ta, tb, tc).entries;
    ExampleRootIsFaultless(root, a, b, c, ta, tb, tc);
    ExampleRootRecords(root, a, b, c, ta, tb, tc);
    ScanWithoutStop(es, Checks(es));
  }

  /** The records a full scan of ExampleRoot yields: one per subdirectory, with its total size. */
  lemma ExampleRootRecords(root: Path, a: Path, b: Path, c: Path, ta: FileTime, tb: FileTime, tc: FileTime)
    ensures FullRecords(ExampleRoot(root, a, b, c, ta, tb, tc).entries)
      == [FolderInfo(a, 5000, ta), FolderInfo(b, 15000000, tb), FolderInfo(c, 0, tc)]
  {
    var es := ExampleRoot(root, a, b, c, ta, tb, tc).entries;
    var da, db, dc := es[0], es[1], es[2];
    OneFileDirectory(a, a + "/data.bin", ta, 5000);
    OneFileDirectory(b, b + "/data.bin", tb, 15000000);
    assert es[1..] == [db, dc] && [db, dc][1..] == [dc] && [dc][1..] == [];
    var ra, rb, rc := FolderInfo(a, 5000, ta), FolderInfo(b, 15000000, tb), FolderInfo(c, 0, tc);
    assert FullRecords([dc]) == [rc];
    assert FullRecords([db, dc]) == [rb, rc];
  }

  /** The walk of a directory holding two files, listed without error. */
  lemma TwoFileDirectoryWalk(a: Path, f1: Path, f2: Path, ta: FileTime, s1: nat, s2: nat)
    ensures var da := Dir(a, ta, [File(f1, s1), File(f2, s2)], None);
      Walk(da) == [PreVisitDirectory(a), VisitFile(f1, s1), VisitFile(f2, s2), PostVisitDirectory(a, None)]
      && TotalSize(da) == s1 + s2
  {
    var es := [File(f1, s1), File(f2, s2)];
    assert es[0] == File(f1, s1) && es[1..] == [File(f2, s2)] && es[1..][0] == File(f2, s2) && es[1..][1..] == [];
    assert WalkEntries(es[1..]) == [VisitFile(f2, s2)];
    assert WalkEntries(es) == [VisitFile(f1, s1), VisitFile(f2, s2)];
    assert TotalSizes(es[1..]) == s2;
    assert TotalSizes(es) == s1 + s2;
  }

  /**
   * The flag reads false part-way through a subdirectory's walk: that
   * subdirectory still yields a record, with the bytes added before the
   * false read, and the loop stops at the next entry.  Two reads see true
   * here: the loop's check before A, and the `visitFile` of A's first file.
   */
  lemma ExampleCancelInsideWalkKeepsPartialRecord(a: Path, f1: Path, f2: Path, ta: FileTime, s1: nat, s2: nat, next: Node)
    ensures var da := Dir(a, ta, [File(f1, s1), File(f2, s2)], None);
      Scan([da, next], 2) == ScanRun([FolderInfo(a, s1, ta)], 1, Cancelled)
      && (s2 > 0 ==> s1 < TotalSize(da))
  {
    var da := Dir(a, ta, [File(f1, s1), File(f2, s2)], None);
    TwoFileDirectoryWalk(a, f1, f2, ta, s1, s2);
    var evs := Walk(da);
    assert FirstFault(evs) == 4;
    var head := evs[..2];
    assert head == [PreVisitDirectory(a), VisitFile(f1, s1)] && head[1..] == [VisitFile(f1, s1)] && head[1..][1..] == [];
    assert FileSizes(head[1..]) == [s1];
    assert FileSizes(head) == [s1];
    SizeStopsWhenCancelled(evs, 1, 2);
    assert Sum([s1]) == s1;
    var es := [da, next];
    assert es[0] == da && es[1..] == [next];
    ScanOfDirectory(es, 2, Ok(s1), 0);
  }

  /** `countDirectories` on ExampleRoot counts the root, A and B, and lists C alone as denied. */
  lemma ExampleCountListsDeniedSubdirectory(root: Path, a: Path, b: Path, c: Path, ta: FileTime, tb: FileTime, tc: FileTime)
    ensures DeniedPaths(ExampleRoot(root, a, b, c, ta, tb, tc)) == [c]
    ensures DirCount(ExampleRoot(root, a, b, c, ta, tb, tc)) == 3
    ensures Faultless(ExampleRoot(root, a, b, c, ta, tb, tc))
    ensures var evs := Walk(ExampleRoot(root, a, b, c, ta, tb, tc));
      PreVisits(evs[..FirstFault(evs)]) == 3 && DeniedFiles(evs[..FirstFault(evs)]) == [c]
  {
    var es := ExampleRoot(root, a, b, c, ta, tb, tc).entries;
    var da, db, dc := es[0], es[1], es[2];
    OneFileDirectory(a, a + "/data.bin", ta, 5000);
    OneFileDirectory(b, b + "/data.bin", tb, 15000000);
    assert es[1..] == [db, dc] && [db, dc][1..] == [dc] && [dc][1..] == [];
    assert DeniedPathsIn([dc]) == [c];
    assert DeniedPathsIn([db, dc]) == [c];
    assert DirCounts([dc]) == 0;
    assert DirCounts([db, dc]) == 1;
    ExampleRootIsFaultless(root, a, b, c, ta, tb, tc);
    FaultlessWalkIsWhole(ExampleRoot(root, a, b, c, ta, tb, tc));
  }

  /**
   * The values the loop posts to the progress bar before its first `n`
   * entries: before entry `j` it posts `dirsScanned / (int) totalDirs`
   * with `dirsScanned == j`, an integer division of non-negative numbers.
   */
  function Progress(n: nat, totalDirs: nat): (p: seq<int>)
    requires totalDirs >= 1
    ensures |p| == n
  {
    if n == 0 then [] else Progress(n - 1, totalDirs) + [(n - 1) / totalDirs]
  }

  /**
   * Each posted value is the number of entries already counted divided by
   * the directory count, so it stays 0 until as many entries have been
   * counted as there are directories in the whole tree.
   */
  lemma {:induction false} ProgressValues(n: nat, totalDirs: nat)
    requires totalDirs >= 1
    ensures forall j :: 0 <= j < n ==> Progress(n, totalDirs)[j] == j / totalDirs
    ensures forall j :: 0 <= j < n && j < totalDirs ==> Progress(n, totalDirs)[j] == 0
  {
    var p := Progress(n, totalDirs);
    if n > 0 {
      ProgressValues(n - 1, totalDirs);
      var before := Progress(n - 1, totalDirs);
      assert p == before + [(n - 1) / totalDirs];
      forall j | 0 <= j < n
        ensures p[j] == j / totalDirs
      {
        if j < n - 1 {
          assert p[j] == before[j];
        }
      }
    }
    forall j | 0 <= j < n && j < totalDirs
      ensures p[j] == 0
    {
      QuotientOfSmaller(j, totalDirs);
    }
  }

  /** A count below the divisor gives a quotient of 0. */
  lemma QuotientOfSmaller(j: nat, d: nat)
    requires j < d
    ensures j / d == 0
  {
  }

  // ---------------------------------------------------------------------
  // The report

  /** One block of the result text: the folder, its formatted size and its modification time. */
  datatype ReportEntry = ReportEntry(path: Path, size: SizeText, lastModified: FileTime)

  function Render(f: FolderInfo): (r: ReportEntry)
    ensures r.path == f.GetPath() && r.lastModified == f.GetLastModifiedTime()
    ensures r.size.Plain? <==> f.GetSize() < KILOBYTE
    ensures r.size.Scaled? ==> r.size.bytes == f.GetSize()
  {
    ReportEntry(f.GetPath(), FormatSize(f.GetSize()), f.GetLastModifiedTime())
  }

  /** What the worker hands to the window: the report and the progress values it posted. */
  datatype ScanOutcome =
    | Reported(report: seq<ReportEntry>, progress: seq<int>)
    | WorkerDied(progress: seq<int>)  // an unchecked exception ended the worker before the report

  /**
   * `outcome` is what the rest of `run()` gives once the stream on `listing`
   * is open, with `totalDirs` directories counted and `live` reads of
   * `scanning` that see true: the loop's progress values, the worker's
   * death by an unchecked exception, or the top ten of the stably sorted
   * records the loop collected, whichever way the loop ended.
   */
  predicate ReportsScan(outcome: ScanOutcome, listing: Node, totalDirs: nat, live: nat)
    requires listing.Dir?
  {
    var run := Scan(listing.entries, live);
    var sorted := SortBySize(run.records);
    && (totalDirs == 0 && listing.entries != [] ==> outcome == WorkerDied([]))
    && (totalDirs == 0 ==> outcome.progress == [])
    && (totalDirs >= 1 ==>
          outcome.progress == Progress(if run.exit == Exhausted then run.scanned else run.scanned + 1, totalDirs))
    && (totalDirs >= 1 || listing.entries == [] ==>
          && (outcome.WorkerDied? <==> run.exit == Exhausted && listing.iterError.Some?)
          && (outcome.Reported? ==>
                && |outcome.report| == Min(TOP_N, |sorted|)
                && forall i :: 0 <= i < |outcome.report| ==> outcome.report[i] == Render(sorted[i])))
  }

  // ---------------------------------------------------------------------
  // The scanner

  class FolderScanner {
    /** The shared list of denied paths: cleared when a scan starts, then only appended to. */
    var deniedPaths: seq<string>

    constructor ()
      ensures deniedPaths == []
    {
      deniedPaths := [];
    }

    /**
     * `countDirectories`: counts every `preVisitDirectory`, root included,
     * and appends one message per access-denied `visitFileFailed`, in visit
     * order.  The first exception that `postVisitDirectory` rethrows ends
     * the walk; the handler keeps the count reached so far.
     */
    method CountDirectories(start: Node) returns (count: nat)
      modifies this
      ensures var evs := Walk(start); var k := FirstFault(evs);
        count == PreVisits(evs[..k]) && deniedPaths == old(deniedPaths) + Messages(DeniedFiles(evs[..k]))
      ensures start.Dir? ==> count >= 1
      ensures Faultless(start) ==>
        count == DirCount(start) && deniedPaths == old(deniedPaths) + Messages(DeniedPaths(start))
    {
      ghost var before := deniedPaths;
      var evs := Walk(start);
      ghost var k := FirstFault(evs);
      count := 0;
      var i := 0;
      while i < |evs|
        invariant i <= k
        invariant count == PreVisits(evs[..i])
        invariant deniedPaths == before + Messages(DeniedFiles(evs[..i]))
      {
        var ev := evs[i];
        if ev.IsFault() {
          break;
        }
        CountMessagesStep(evs, i);
        if ev.PreVisitDirectory? {
          count := count + 1;
        } else if ev.VisitFileFailed? && ev.exc == AccessDenied {
          deniedPaths := deniedPaths + [DENIED_PREFIX + ev.file];
        }
        i := i + 1;
      }
      assert i == k;
      if start.Dir? {
        DirectoryWalkStartsWithPreVisit(start);
      }
      if Faultless(start) {
        FaultlessWalkIsWhole(start);
      }
    }

    /**
     * `calculateFolderSize`: the walk of `dir` with the summing visitor.
     * It reads the flag but changes nothing of the scanner: in particular
     * it never touches `deniedPaths`.
     */
    method CalculateFolderSize(dir: Node, live: nat) returns (r: Result<nat>, left: nat)
      ensures Walked(r, left) == FolderSize(dir, live)
      ensures r.Ok? ==> r.value <= TotalSize(dir)
    {
      r, left := SumVisitedSizes(Walk(dir), live);
      FolderSizeBounds(dir, live);
    }

    /**
     * The summing visitor, driven through the callbacks `evs` in order:
     * `visitFile` checks `scanning` and adds the file's size,
     * `postVisitDirectory` rethrows a listing's exception.
     */
    method SumVisitedSizes(evs: seq<Event>, live: nat) returns (r: Result<nat>, left: nat)
      ensures Walked(r, left) == VisitedSize(evs, live)
    {
      var size: nat := 0;
      left := live;
      var i := 0;
      while i < |evs|
        invariant i <= FirstFault(evs)
        invariant size == Sum(FileSizes(evs[..i]))
        invariant |FileSizes(evs[..i])| + left == live
      {
        var ev := evs[i];
        SizeStep(evs, i);
        if ev.VisitFile? {
          if left == 0 {
            // visitFile: `scanning` is false, so TERMINATE before adding
            SizeStopsWhenCancelled(evs, live, i);
            r := Ok(size);
            return;
          }
          size := size + ev.size;
          left := left - 1;
        } else if ev.IsFault() {
          // postVisitDirectory rethrows the iteration exception
          SizeStopsAtFault(evs, live, i);
          r := Err(ev.iterFailure.value);
          return;
        }
        i := i + 1;
      }
      assert evs[..i] == evs;
      SizeAtEndOfWalk(evs, live);
      r := Ok(size);
    }

    /**
     * The loop over the root's entries in `run()`.  Before each entry it
     * posts `dirsScanned / totalDirs` as progress and checks `scanning`.
     * With a directory count of 0 that division throws an
     * `ArithmeticException` at the first entry, before anything is posted.
     */
    method ScanEntries(entries: seq<Node>, totalDirs: nat, live: nat)
      returns (records: seq<FolderInfo>, scanned: nat, exit: LoopExit, progress: seq<int>)
      ensures totalDirs == 0 && entries != [] ==>
        records == [] && scanned == 0 && exit == DividedByZero && progress == []
      ensures totalDirs >= 1 || entries == [] ==> ScanRun(records, scanned, exit) == Scan(entries, live)
      ensures totalDirs >= 1 ==> progress == Progress(if exit == Exhausted then scanned else scanned + 1, totalDirs)
      ensures totalDirs == 0 ==> progress == []
      ensures exit == DividedByZero <==> totalDirs == 0 && entries != []
    {
      if entries == [] {
        // an empty stream: the loop body never runs
        records, scanned, exit, progress := [], 0, Exhausted, [];
      } else if totalDirs == 0 {
        // the first entry's progress value divides by zero; nothing in
        // `run()` catches the ArithmeticException
        records, scanned, exit, progress := [], 0, DividedByZero, [];
      } else {
        records, scanned, exit, progress := ScanLoop(entries, totalDirs, live);
      }
    }

    /** The iterations of that loop, once the count is known to be a valid divisor. */
    method ScanLoop(entries: seq<Node>, totalDirs: nat, live: nat)
      returns (records: seq<FolderInfo>, scanned: nat, exit: LoopExit, progress: seq<int>)
      requires totalDirs >= 1
      ensures ScanRun(records, scanned, exit) == Scan(entries, live)
      ensures progress == Progress(if exit == Exhausted then scanned else scanned + 1, totalDirs)
    {
      ghost var whole := Scan(entries, live);
      records, scanned, exit, progress := [], 0, Exhausted, [];
      var cur := live;
      var i := 0;
      assert entries[0..] == entries && records + whole.records == whole.records;
      while i < |entries|
        invariant i <= |entries| && scanned == i
        invariant progress == Progress(i, totalDirs)
        invariant whole == After(records, i, Scan(entries[i..], cur))
      {
        progress := progress + [scanned / totalDirs];
        assert progress == Progress(i + 1, totalDirs);
        var kept, left, stop := ScanEntry(entries, records, i, cur, whole);
        if stop.Some? {
          exit := stop.value;
          break;
        }
        records, cur := kept, left;
        scanned := scanned + 1;
        i := i + 1;
      }
      if exit == Exhausted {
        ScanStopsWhenExhausted(whole, entries, records, cur);
      }
    }

    /**
     * One pass of the loop's body for entry `i`, after its progress value
     * is posted: the flag check, then for a directory its size and its
     * record.  An AccessDeniedException skips the record; `stop` says how
     * the loop ends when the flag reads false or another IOException
     * leaves it.
     */
    method ScanEntry(entries: seq<Node>, records: seq<FolderInfo>, i: nat, cur: nat, ghost whole: ScanRun)
      returns (kept: seq<FolderInfo>, left: nat, stop: Option<LoopExit>)
      requires i < |entries|
      requires whole == After(records, i, Scan(entries[i..], cur))
      ensures stop.Some? ==> whole == ScanRun(records, i, stop.value) && stop.value != Exhausted
      ensures stop.None? ==> whole == After(kept, i + 1, Scan(entries[i + 1..], left))
    {
      kept, left, stop := records, cur, None;
      if cur == 0 {
        ScanStopsWhenCancelled(whole, entries, records, i);
        stop := Some(Cancelled);
        return;
      }
      if !entries[i].IsDirectory() {
        ScanStepOverFile(whole, entries, records, i, cur);
        left := cur - 1;
        return;
      }
      kept, left, stop := ScanDirectory(entries, records, i, cur, whole);
    }

    /**
     * The part of the loop's body for a directory entry past the flag
     * check: its size, its last-modified time and its record.  An
     * AccessDeniedException skips the record; any other IOException ends
     * the loop.
     */
    method ScanDirectory(entries: seq<Node>, records: seq<FolderInfo>, i: nat, cur: nat, ghost whole: ScanRun)
      returns (kept: seq<FolderInfo>, left: nat, stop: Option<LoopExit>)
      requires i < |entries| && cur > 0 && entries[i].IsDirectory()
      requires whole == After(records, i, Scan(entries[i..], cur))
      ensures stop.Some? ==> whole == ScanRun(records, i, stop.value) && stop.value == Aborted
      ensures stop.None? ==> whole == After(kept, i + 1, Scan(entries[i + 1..], left))
    {
      var e := entries[i];
      var r;
      r, left := CalculateFolderSize(e, cur - 1);
      ScanStepOverDirectory(whole, entries, records, i, cur, r, left);
      kept, stop := records, None;
      if r.Ok? {
        kept := records + [FolderInfo(e.path, r.value, e.Modified())];
      } else if r.error == OtherIoError {
        // only AccessDeniedException is caught inside the loop
        stop := Some(Aborted);
      }
    }

    /** The result text's loop: the first `min(10, n)` ranked records, in rank order. */
    method ReportTop(sorted: seq<FolderInfo>) returns (report: seq<ReportEntry>)
      ensures |report| == Min(TOP_N, |sorted|)
      ensures forall i :: 0 <= i < |report| ==> report[i] == Render(sorted[i])
    {
      report := [];
      var n := Min(TOP_N, |sorted|);
      var i := 0;
      while i < n
        invariant i <= n
        invariant |report| == i
        invariant forall j :: 0 <= j < i ==> report[j] == Render(sorted[j])
      {
        report := report + [Render(sorted[i])];
        i := i + 1;
      }
    }

    /**
     * The rest of `run()` once the root's stream is open and its
     * directories are counted: the loop, the sort and the top-ten report.
     * An unchecked exception from the loop (the division by a count of 0,
     * or the stream's DirectoryIteratorException) ends the worker instead.
     */
    method ScanAndReport(listing: Node, totalDirs: nat, live: nat) returns (outcome: ScanOutcome)
      requires listing.Dir?
      ensures ReportsScan(outcome, listing, totalDirs, live)
    {
      var records, scanned, exit, progress := ScanEntries(listing.entries, totalDirs, live);
      if exit == DividedByZero || (exit == Exhausted && listing.iterError.Some?) {
        outcome := WorkerDied(progress);
        return;
      }
      var sorted := SortBySize(records);
      var report := ReportTop(sorted);
      outcome := Reported(report, progress);
    }

    /**
     * `startScan` and its worker's `run()`: clear the denied list; open the
     * root, following links (an IOException here skips straight to the
     * empty report); count the directories, without following links; then
     * scan and report.
     */
    method StartScan(start: Node, live: nat) returns (outcome: ScanOutcome)
      modifies this
      ensures !Resolve(start).Dir? ==> deniedPaths == [] && outcome == Reported([], [])
      ensures Resolve(start).Dir? ==>
        var evs := Walk(start);
        var k := FirstFault(evs);
        && deniedPaths == Messages(DeniedFiles(evs[..k]))
        && ReportsScan(outcome, Resolve(start), PreVisits(evs[..k]), live)
      ensures start.Link? && Resolve(start).Dir? ==>
        deniedPaths == [] && (Resolve(start).entries != [] ==> outcome == WorkerDied([]))
    {
      deniedPaths := [];
      var listing := Resolve(start);
      if !listing.Dir? {
        // Files.newDirectoryStream throws; the handler falls through to an empty report
        var report := ReportTop(SortBySize([]));
        outcome := Reported(report, []);
        return;
      }
      ghost var evs := Walk(start);
      ghost var k := FirstFault(evs);
      var totalDirs := CountDirectories(start);
      assert totalDirs == PreVisits(evs[..k]) && deniedPaths == Messages(DeniedFiles(evs[..k]));
      RootCountIsZeroOnlyForLink(start);
      outcome := ScanAndReport(listing, totalDirs, live);
    }
  }
}

=== FILE: size_format.dfy ===
/**
 * `formatSize`: the choice of unit for a byte count, and the text of the
 * plain "bytes" case.  The KB, MB and GB cases render a `double` quotient
 * with `DecimalFormat("#.##")`; the model keeps the unit and the byte count
 * of those cases and leaves their digits out.
 */
module SizeFormat {

  const KILOBYTE: int := 1024
  const MEGABYTE: int := KILOBYTE * 1024
  const GIGABYTE: int := MEGABYTE * 1024

  const BYTES_SUFFIX: string := " bytes"

  datatype Unit = KB | MB | GB
  {
    /** The number of bytes in one unit. */
    function Bytes(): int
    {
      match this
      case KB => KILOBYTE
      case MB => MEGABYTE
      case GB => GIGABYTE
    }

    function Suffix(): string
    {
      match this
      case KB => " KB"
      case MB => " MB"
      case GB => " GB"
    }
  }

  /**
   * The result of `formatSize`: either the finished text of the "bytes"
   * case, or `df.format((double) bytes / unit.Bytes()) + unit.Suffix()`.
   */
  datatype SizeText = Plain(text: string) | Scaled(bytes: int, unit: Unit)

  // ---------------------------------------------------------------------
  // Decimal text of a `long`, as string concatenation renders it

  predicate IsDigit(c: char) { '0' <= c <= '9' }

  predicate AllDigits(s: string) { forall i :: 0 <= i < |s| ==> IsDigit(s[i]) }

  function DigitChar(d: nat): (c: char)
    requires d < 10
    ensures IsDigit(c)
  {
    ('0' as int + d) as char
  }

  function DigitValue(c: char): (d: nat)
    requires IsDigit(c)
    ensures d < 10
  {
    c as int - '0' as int
  }

  /** Reads a string of digits as a number. */
  function ParseDigits(s: string): nat
    requires AllDigits(s)
  {
    if s == [] then 0 else ParseDigits(s[..|s| - 1]) * 10 + DigitValue(s[|s| - 1])
  }

  /** Digits, possibly after one minus sign. */
  predicate IsDecimal(s: string)
  {
    (|s| >= 1 && AllDigits(s)) || (|s| >= 2 && s[0] == '-' && AllDigits(s[1..]))
  }

  function ParseDecimal(s: string): int
    requires IsDecimal(s)
  {
    if s[0] == '-' then -(ParseDigits(s[1..]) as int) else ParseDigits(s)
  }

  /** A decimal written the way `Long.toString` writes one: no leading zero, and no minus sign on zero. */
  predicate IsCanonicalDecimal(s: string)
  {
    && IsDecimal(s)
    && var digits := if s[0] == '-' then s[1..] else s;
       (|digits| > 1 ==> digits[0] != '0') && (s[0] == '-' ==> digits != "0")
  }

  /** The digits of `n` without leading zeros. */
  function NatDigits(n: nat): (s: string)
    ensures |s| >= 1 && AllDigits(s)
    ensures |s| > 1 ==> s[0] != '0'
    ensures ParseDigits(s) == n
  {
    if n < 10 then [DigitChar(n)]
    else
      var high := NatDigits(n / 10);
      var s := high + [DigitChar(n % 10)];
      assert s[..|s| - 1] == high;
      s
  }

  /** `Long.toString(n)`: a minus sign for a negative number, then its digits. */
  function DecimalString(n: int): (s: string)
    ensures IsCanonicalDecimal(s)
    ensures ParseDecimal(s) == n
    ensures (s[0] == '-') <==> n < 0
  {
    if n < 0 then
      var digits := NatDigits(-n);
      assert ("-" + digits)[1..] == digits;
      assert ParseDigits("0") == 0 by { assert "0"[..0] == []; }
      "-" + digits
    else NatDigits(n)
  }

  /** A digit string without a leading zero is the one `NatDigits` gives for its value. */
  lemma {:induction false} CanonicalDigitsAreNatDigits(t: string)
    requires |t| >= 1 && AllDigits(t) && (|t| > 1 ==> t[0] != '0')
    ensures t == NatDigits(ParseDigits(t))
    decreases |t|
  {
    var last := t[|t| - 1];
    assert DigitChar(DigitValue(last)) == last;
    if |t| == 1 {
      assert t[..0] == [];
      assert t == [last];
    } else {
      var prefix := t[..|t| - 1];
      assert prefix[0] == t[0];
      assert AllDigits(prefix) by {
        forall i | 0 <= i < |prefix| ensures IsDigit(prefix[i]) {
          assert prefix[i] == t[i];
        }
      }
      CanonicalDigitsAreNatDigits(prefix);
      var pv := ParseDigits(prefix);
      var v := ParseDigits(t);
      assert v == pv * 10 + DigitValue(last);
      assert NatDigits(0) == ['0'];
      assert pv != 0;
      assert v / 10 == pv && v % 10 == DigitValue(last);
      assert t == prefix + [last];
    }
  }

  /** Only one canonical decimal reads as a given number: the one `Long.toString` writes. */
  lemma CanonicalDecimalIsUnique(s: string)
    requires IsCanonicalDecimal(s)
    ensures s == DecimalString(ParseDecimal(s))
  {
    if s[0] == '-' {
      var digits := s[1..];
      assert AllDigits(digits);
      CanonicalDigitsAreNatDigits(digits);
      var n: int := ParseDigits(digits);
      assert n != 0 by { assert NatDigits(0) == ['0']; }
      assert ParseDecimal(s) == -n;
      assert DecimalString(-n) == "-" + NatDigits(n);
      assert s == "-" + digits;
    } else {
      assert AllDigits(s);
      CanonicalDigitsAreNatDigits(s);
      assert ParseDecimal(s) == ParseDigits(s);
    }
  }

  // ---------------------------------------------------------------------
  // formatSize

  /**
   * Below one kilobyte the text is the decimal count followed by " bytes";
   * otherwise the unit is the largest of KB, MB and GB that is not larger
   * than the count.
   */
  function FormatSize(bytes: int): (r: SizeText)
    ensures r.Plain? <==> bytes < KILOBYTE
    ensures r.Scaled? ==> r.bytes == bytes && r.unit.Bytes() <= bytes
    ensures r.Scaled? ==> forall u: Unit :: u.Bytes() <= bytes ==> u.Bytes() <= r.unit.Bytes()
    ensures r.Plain? ==>
      var n := |r.text| - |BYTES_SUFFIX|;
      n >= 1 && r.text[n..] == BYTES_SUFFIX && IsCanonicalDecimal(r.text[..n]) && ParseDecimal(r.text[..n]) == bytes
  {
    if bytes >= GIGABYTE then Scaled(bytes, GB)
    else if bytes >= MEGABYTE then Scaled(bytes, MB)
    else if bytes >= KILOBYTE then Scaled(bytes, KB)
    else
      var digits := DecimalString(bytes);
      var text := digits + BYTES_SUFFIX;
      assert text[..|digits|] == digits && text[|digits|..] == BYTES_SUFFIX;
      Plain(text)
  }

  /**
   * The plain text is fixed by what `FormatSize` promises: any text ending
   * in " bytes" after a canonical decimal of the count is `bytes + " bytes"`.
   */
  lemma PlainTextIsConcatenation(bytes: int, text: string)
    requires bytes < KILOBYTE
    requires var n := |text| - |BYTES_SUFFIX|;
      n >= 1 && text[n..] == BYTES_SUFFIX && IsCanonicalDecimal(text[..n]) && ParseDecimal(text[..n]) == bytes
    ensures text == DecimalString(bytes) + BYTES_SUFFIX
    ensures FormatSize(bytes) == Plain(text)
  {
    var n := |text| - |BYTES_SUFFIX|;
    var digits := text[..n];
    CanonicalDecimalIsUnique(digits);
    assert digits == DecimalString(bytes);
    assert text == digits + text[n..];
    assert text == DecimalString(bytes) + BYTES_SUFFIX;
  }

  /** Unless the unit is GB, the chosen unit leaves a quotient in [1, 1024). */
  lemma ScaledQuotientBelowNextUnit(bytes: int)
    requires FormatSize(bytes).Scaled? && FormatSize(bytes).unit != GB
    ensures FormatSize(bytes).unit.Bytes() <= bytes < FormatSize(bytes).unit.Bytes() * 1024
  {
  }

  /** Sample sizes, one per branch. */
  lemma FormatExamples()
    ensures FormatSize(500) == Plain("500 bytes")
    ensures FormatSize(2048) == Scaled(2048, KB)
    ensures FormatSize(1572864) == Scaled(1572864, MB)
    ensures FormatSize(3 * 1024 * 1024 * 1024) == Scaled(3221225472, GB)
  {
    assert NatDigits(5) == "5";
    assert NatDigits(50) == "50";
    assert NatDigits(500) == "500";
  }
}
